=== FILE: README.md ===
# Grappa buddy allocator and all-reduce collectives, in Dafny

This project models two pieces of the Grappa runtime and proves properties
of them.

**The global-heap buddy allocator** (`system/Allocator.hpp`).
- An arena of `size` bytes is tracked as a map from offset to chunk: in use, address and size.
- A map from size class to a free list holds the free chunks of that size, front first.
- The constructor carves the arena into power-of-two chunks.
- `malloc` rounds the request up to a power of two with the bit-smearing `next_largest_power_of_2`: decrement, OR the value with itself shifted right by 1, 2, 4, 8, 16 and 32 bits, increment. It takes the front chunk of the smallest large-enough class and halves it repeatedly, keeping the upper half, until it has the rounded size.
- `free` puts a chunk back on its list. It then merges the chunk with its XOR buddy (`address ^ size`) for as long as that buddy is tracked, of the same size and free.
- The counters `total_bytes`, `total_bytes_in_use`, `total_bytes_free` and `num_chunks` walk the chunk map.

Modules:
- `Bits`: powers of two, the rounding as the least power of two at least a value, and XOR.
- `Rounding`: the bit trick of `next_largest_power_of_2`, with OR and right shift on non-negative integers, proved equal to that least power of two.
- `HeapState`: the state, the invariant `Valid` and the free-list and chunk-map primitives.
- `ByteCounts`: the counters.
- `Buddy`: construction and malloc.
- `BuddyFree`: free and coalescing.
- `AllocatorExamples`: worked arenas of 5 and 1024 bytes.

**The all-reduce collectives** (`system/Collective.hpp`).
- Every node sends its value to node 0. Node 0's handler folds the values into a static accumulator and counts the arrivals.
- The N-th arrival resets the count and wakes every node, in node order, with the result.
- `am_reduce` starts a round from `BaseVal`. `am_reduce_noinit` starts it from the first value.
- `am_reduce_array` does the same element-wise on an array it allocates on the first arrival and frees on the last.
- The vector `Grappa_allreduce(array, nelem, result)` cuts the array into chunks of at most `maxn = 2048 / sizeof(T)` elements. It sends each chunk through `allreduce_one_message`, whose wake-up copies the chunk's reduced values to the result pointer.

Modules:
- `Folds`: left folds and order independence.
- `Reduction`: the scalar handlers and whole rounds.
- `ArrayReduction`: the array handler and array rounds.
- `Chunking`: the chunk loop, where each chunk lands, and what the caller's buffers hold afterwards.

The transport is abstract:
- A handler run is a function from node 0's statics and one contribution to the new statics and the wake-ups it sends, in order.
- A round is the handler run once per contribution, in arrival order.
- The arrival order is a free parameter, so every lemma about a round holds for every interleaving the network could produce.

Addresses are offsets from the arena base. Integers are unbounded; the 64-bit limits appear as preconditions: `MaxArena` for the `int64_t` size and `MaxRequest` for the rounding.

`malloc` keeps the upper half on every split, so `malloc(100)` on a fresh 1024-byte arena returns offset 896, leaving free chunks of 512, 256 and 128 at 0, 512 and 768 (`AllocatorExamples.MallocHundred`).

The rounding is modelled on non-negative integers. For every request from 1 to 2^63 each intermediate value of `next_largest_power_of_2` is a non-negative `int64_t` below 2^63, so `v >> s` is division by 2^s and `|` is bitwise OR on naturals (`Rounding.Or`). At 2^63 itself the `int64_t` conversion, decrement and increment wrap, and the `size_t` key that `lower_bound` receives is 2^63 again, the value the model computes. `Rounding.SmearRounds` proves that the bit trick yields `Bits.NextPow2`, the least power of two at least the request; the rest of the model rounds with `NextPow2`.

## Model

| member | source | states |
|---|---|---|
| Bits.NextPow2 | system/Allocator.hpp:97-107 | the rounding yields a power of two p with v <= p and p / 2 < v |
| Bits.NextPow2IsLeast | system/Allocator.hpp:97-107 | the rounding is the least power of two at least v |
| Bits.NextPow2OfPow2 | system/Allocator.hpp:97-107 | a power of two rounds to itself |
| Bits.LargestPow2AtMost | system/Allocator.hpp:179-194 | the largest power of two p with p <= n < 2p, the chunk the corrected construction carves |
| Bits.Xor | system/Allocator.hpp:134 | address ^ size is addition without carries: never above the sum, and differing from it by an even amount |
| Bits.XorPow2 | system/Allocator.hpp:133-134 | address ^ size, for a power-of-two size, is address + size when that bit is clear and address - size when it is set |
| Rounding.Shr | system/Allocator.hpp:99-104 | v >> s on a non-negative value is the number of whole multiples of 2^s it holds |
| Rounding.OrAtLeast | system/Allocator.hpp:99-104 | OR-ing x into v never lowers v, and the result is at least x |
| Rounding.OrBelow | system/Allocator.hpp:99-104 | OR of two values below a power of two stays below it |
| Rounding.OrAbove | system/Allocator.hpp:99-104 | OR with a value below 2^k keeps every bit from 2^k up and adds at least that value |
| Rounding.Step | system/Allocator.hpp:99-104 | one step, v OR-ed with v >> s, on a value whose top bits below p are set down to p - q, with q * 2^s == p, leaves them set down to p - q / 2^s, or all set |
| Rounding.Fills | system/Allocator.hpp:99-104 | the six shifts, each the square of the one before, set every bit below p of a value whose top bit below p is set |
| Rounding.Smears | system/Allocator.hpp:97-107 | for 2 <= v <= 2^63 the bit trick yields NextPow2(v) |
| Rounding.SmearRounds | system/Allocator.hpp:97-107 | for 1 <= v <= 2^63 the bit trick yields the least power of two at least v |
| HeapState.FreeListMembership | system/Allocator.hpp:109-121 | in a valid allocator, a chunk is in free_lists_[s] exactly when it is tracked, has size s and is not in use |
| HeapState.ClassNoDup | system/Allocator.hpp:109-110 | the free list of a tracked chunk's class holds no offset twice, so erasing its slot removes exactly that chunk |
| HeapState.RemoveFirst | system/Allocator.hpp:110 | erasing k from a list without duplicates removes exactly k and shortens it by one, and changes nothing when k is absent |
| HeapState.RemoveFirstAt | system/Allocator.hpp:110 | erasing the one occurrence of k closes up the list: the elements before and after k keep their order |
| HeapState.RemoveFromFreeList | system/Allocator.hpp:109-115 | the chunk is marked in use, it and only it leaves the lists, an emptied class disappears, well-formed lists stay well formed, and every other class's list is unchanged, order included |
| HeapState.AddToFreeList | system/Allocator.hpp:117-121 | the chunk is marked free and pushed on the front of its class, the only listing added, and the class exists afterwards; every other class's list is unchanged, order included |
| HeapState.AddToChunkMap | system/Allocator.hpp:123-129 | a new offset is tracked with the given chunk and every other chunk and the free lists are unchanged |
| HeapState.SumBounded | system/Allocator.hpp:265-271 | non-overlapping chunks inside a range add up to at most its length |
| HeapState.TilesAfterMarking | system/Allocator.hpp:114 | flipping in_use keeps the chunks tiling the arena |
| HeapState.TilesAfterHalving | system/Allocator.hpp:236-245 | cutting a chunk into its two halves keeps the tiling |
| HeapState.TilesAfterJoining | system/Allocator.hpp:144-154 | replacing two adjacent equal chunks by one of twice the size keeps the tiling |
| HeapState.TilesAfterPlacing | system/Allocator.hpp:189-193 | a power-of-two chunk placed at the end of a tiled prefix extends the tiling |
| ByteCounts.TotalBytes | system/Allocator.hpp:265-271 | in a valid state total_bytes equals the arena size |
| ByteCounts.BytesInUse | system/Allocator.hpp:273-281 | in a valid state total_bytes_in_use lies between 0 and the arena size |
| ByteCounts.BytesFree | system/Allocator.hpp:283-291 | in a valid state total_bytes_free lies between 0 and the arena size |
| ByteCounts.NumChunks | system/Allocator.hpp:261-263 | a valid state tracks at least one chunk and at most one per byte |
| ByteCounts.KeysWithin | system/Allocator.hpp:261-263 | a set of offsets inside [lo, hi) has at most hi - lo members |
| ByteCounts.SameInUseBytes | system/Allocator.hpp:273-281 | two states with the same in-use chunks have the same total_bytes_in_use |
| ByteCounts.InUsePlusFree | system/Allocator.hpp:265-291 | total_bytes_in_use + total_bytes_free == total_bytes, for every state |
| ByteCounts.ByteCovered | system/Allocator.hpp:165-195 | every byte of a valid arena lies in exactly one tracked chunk |
| Buddy.TakeChunk | system/Allocator.hpp:109-115 | taking a free chunk off its list keeps the invariant, unlists it and moves its size from free to in use |
| Buddy.ReleaseChunk | system/Allocator.hpp:117-121 | listing an in-use chunk keeps the invariant and moves its size from in use to free |
| Buddy.PlaceChunk | system/Allocator.hpp:189-190 | adding and listing a free chunk at the carving offset extends a valid partial carving by its size |
| Buddy.CarvedSize | system/Allocator.hpp:181-187 | the constructor's chunk is a power of two no larger than what is left |
| Buddy.Carve | system/Allocator.hpp:179-194 | the constructor loop tiles [offset, end) with free listed chunks, keeps the earlier ones, and gives every chunk it carves at o the size CarvedSize(end - o) |
| Buddy.Construct | system/Allocator.hpp:165-195 | a positive size yields a valid allocator of that size, all free, in which every chunk at o has size CarvedSize(size - o); a negative size yields no chunks; zero is refused |
| Buddy.CarveAligned | system/Allocator.hpp:179-194 | the corrected loop tiles the range with chunks aligned to their own sizes, the largest power of two that fits first |
| Buddy.AlignedStep | system/Allocator.hpp:179-194 | carving the largest power of two that fits keeps every chunk and the next offset aligned |
| Buddy.ConstructAligned | system/Allocator.hpp:165-195 | the corrected constructor yields a valid, all-free, aligned allocator with the largest fitting power of two at 0 |
| Buddy.LowerBound | system/Allocator.hpp:213-214 | lower_bound finds the smallest class at least the rounded size, and finds none exactly when every class is smaller |
| Buddy.ClassesBounded | system/Allocator.hpp:213 | every size class of a valid allocator is a power of two no larger than the arena |
| Buddy.DonorClass | system/Allocator.hpp:213-219 | the donor class is the least class at least the rounded size, and is missing exactly when all are smaller |
| Buddy.Halve | system/Allocator.hpp:232-245 | one split of a free chunk keeps the invariant, leaves its two halves free, and leaves the upper half, then the lower half, at the front of class h; class 2h loses the donor with its other entries in order, and every other class's list is unchanged |
| Buddy.HalveAddsChunk | system/Allocator.hpp:243-244 | one split adds exactly one chunk to num_chunks |
| Buddy.HalveSequence | system/Allocator.hpp:232-245 | the source's calls for one split shrink the chunk to h and free it, track the upper half free, and move the chunk's listing from its old class to both halves under h |
| Buddy.HalveSteps | system/Allocator.hpp:232-245 | the closed form of a split equals the source's remove, shrink, add, insert, add sequence, with its listing |
| Buddy.HalveFollowsSource | system/Allocator.hpp:232-245 | Halve is exactly the source's call sequence for one split |
| Buddy.HalveListing | system/Allocator.hpp:232-245 | after a split's calls, the lists are well formed, the donor leaves its class and both halves join class h |
| Buddy.HalveFits | system/Allocator.hpp:243-244 | the upper half's offset is untracked, and the half size is a power of two |
| Buddy.HalveValid | system/Allocator.hpp:230-247 | a state with the split chunk map and listing is valid |
| Buddy.Split | system/Allocator.hpp:229-247 | the splitting loop keeps the invariant, leaves the donor's top want bytes as a free chunk and each lower half free at its place, and touches nothing outside the donor |
| Buddy.ChunksAfter | system/Allocator.hpp:243 | no chunk of a valid allocator starts inside another |
| Buddy.SplitStep | system/Allocator.hpp:229-247 | one split followed by the rest of the loop splits the whole donor |
| Buddy.SplitStepTop | system/Allocator.hpp:243-244 | the top piece of the rest is the top piece of the whole |
| Buddy.SplitStepLows | system/Allocator.hpp:236-240 | the lower halves of the rest and of this split are the lower halves of the whole |
| Buddy.SplitStepFrame | system/Allocator.hpp:229-247 | chunks outside the donor survive the whole loop |
| Buddy.SplitStepFree | system/Allocator.hpp:229-247 | every chunk inside the donor is free after the loop |
| Buddy.Malloc | system/Allocator.hpp:209-253 | malloc throws exactly when every class is below the rounded size, and then leaves the state unchanged; otherwise it allocates from the donor class with request <= rounded size |
| Buddy.TakeFromClass | system/Allocator.hpp:221-252 | success: the result is the donor's top want bytes, in use and unlisted; the lower halves are free and listed; other chunks are untouched; total is kept and in-use grows by want |
| Buddy.MallocFrame | system/Allocator.hpp:249-251 | taking the final piece leaves every chunk outside the donor as it was |
| Buddy.LowsListed | system/Allocator.hpp:240 | the lower halves left by the loop are listed under their sizes |
| Buddy.MallocLows | system/Allocator.hpp:250-251 | the lower halves stay free and listed once the final piece is taken |
| Buddy.MallocAccounting | system/Allocator.hpp:250-251 | across malloc the total is kept, in-use grows and free shrinks by the final piece's size |
| BuddyFree.BuddyAdjacent | system/Allocator.hpp:133-141 | a mergeable buddy is the neighbour right above or right below the chunk |
| BuddyFree.MergeOnce | system/Allocator.hpp:139-154 | a merge keeps the invariant, drops the higher chunk, doubles the lower one, puts it at the front of class 2s, leaves every class other than s and 2s unchanged, and leaves in-use chunks alone |
| BuddyFree.JoinKeepsInUse | system/Allocator.hpp:144-154 | joining two free chunks changes no in-use chunk |
| BuddyFree.MergeDropsChunk | system/Allocator.hpp:145-147 | one merge removes exactly one chunk from num_chunks |
| BuddyFree.MergeSequence | system/Allocator.hpp:144-154 | the source's calls for one merge untrack the higher chunk, double and free the lower one, drop both listings and list the lower one under twice its size |
| BuddyFree.MergeSteps | system/Allocator.hpp:144-154 | the closed form of a merge equals the source's remove, erase, remove, double, add sequence, with its listing |
| BuddyFree.MergeListing | system/Allocator.hpp:144-154 | after a merge's calls both halves leave class s and the lower one joins class 2s |
| BuddyFree.MergeOnceValid | system/Allocator.hpp:144-154 | a state with the merged chunk map and listing is valid |
| BuddyFree.MergeFollowsSource | system/Allocator.hpp:144-154 | MergeOnce is exactly the source's call sequence for one merge |
| BuddyFree.MergeBuddies | system/Allocator.hpp:131-159 | the recursion keeps the invariant and ends at a free chunk that covers the start and cannot merge, with nothing outside it or in use changed |
| BuddyFree.MergeGrows | system/Allocator.hpp:153 | a merge doubles the chunk within the arena and covers the one it started from |
| BuddyFree.MergeNests | system/Allocator.hpp:157 | the rest of the recursion covers the merged chunk and so the original one |
| BuddyFree.Free | system/Allocator.hpp:198-206 | free fails exactly when the offset is untracked or not in use; otherwise it keeps the invariant and the total, moves the chunk's size from in use to free, and ends at an unmergeable free chunk covering the offset, with every chunk outside that one unchanged; every other in-use chunk stays tracked and unchanged, and no in-use chunk is added |
| BuddyFree.FreeAccounting | system/Allocator.hpp:203-205 | merging changes neither total, in-use nor free bytes |
| AllocatorExamples.CarveFive | system/Allocator.hpp:179-194 | the constructor carves an arena of 5 into chunks of 2, 1 and 2 at 0, 2 and 3 |
| AllocatorExamples.CarvedSizes | system/Allocator.hpp:183-187 | 5, 3 and 2 remaining bytes carve off 2, 1 and 2 |
| AllocatorExamples.ClassHasChunk | system/Allocator.hpp:213-224 | every class in the free lists holds a free chunk of that size |
| AllocatorExamples.ClassesBelow | system/Allocator.hpp:213-214 | when every chunk is below a bound so is every class |
| AllocatorExamples.CarveFiveRefusesFour | system/Allocator.hpp:184-185 | as written, malloc(4) on the constructed arena of 5 throws although 5 bytes are free |
| AllocatorExamples.OnlyOfItsSize | system/Allocator.hpp:117-121 | a free chunk whose size no other chunk has is alone on its free list |
| AllocatorExamples.MallocExactFit | system/Allocator.hpp:213-252 | when one chunk of exactly the rounded size is the only large-enough one, malloc returns it |
| AllocatorExamples.AlignedGrantsLargest | system/Allocator.hpp:179-194 | after the corrected construction, malloc of the largest fitting power of two returns offset 0 |
| AllocatorExamples.AlignedFiveGrantsFour | system/Allocator.hpp:184-185 | after the corrected construction, malloc(4) on an arena of 5 returns offset 0 |
| AllocatorExamples.RoundsTo | system/Allocator.hpp:97-107 | a power of two p with p/2 < v <= p is what v rounds to |
| AllocatorExamples.WholeArena | system/Allocator.hpp:179-194 | a valid state whose chunk at 0 spans the arena free is the constructed state of a power-of-two arena |
| AllocatorExamples.FreshArenaOneChunk | system/Allocator.hpp:261-263 | num_chunks of a fresh 1024-byte arena is 1 |
| AllocatorExamples.ConstructWhole | system/Allocator.hpp:165-195 | constructing 1024 bytes gives one free chunk of 1024 listed alone |
| AllocatorExamples.FreeRestoresArena | system/Allocator.hpp:198-206 | freeing 896 after malloc(100) coalesces with 768, 512 and 0 back to the single chunk |
| AllocatorExamples.StopsOnlyWhole | system/Allocator.hpp:139-141 | below 1024 bytes the merged chunk still has its free buddy, so merging stops only at the whole arena |
| AllocatorExamples.MallocHundred | system/Allocator.hpp:209-253 | malloc(100) on the whole 1024 arena returns 896 and leaves free chunks of 512, 256, 128 at 0, 512, 768 |
| AllocatorExamples.MallocThenFreeRestores | system/Allocator.hpp:198-253 | malloc(100) then free(896) on a fresh 1024 arena restores exactly the constructed state |
| AllocatorExamples.MallocBeyondArena | system/Allocator.hpp:213-219 | a request larger than the arena throws and changes nothing |
| Folds.FoldSnoc | system/Collective.hpp:75 | one more contribution folds onto the running result |
| Folds.FoldWithout | system/Collective.hpp:146 | with a commutative, associative reducer any contribution can be folded last |
| Folds.FoldPermutation | system/Collective.hpp:146 | with a commutative, associative reducer the fold is the same for every arrival order |
| Folds.FoldFromIdentity | system/Collective.hpp:124-125 | from a left identity, folding equals folding the tail onto the first value |
| Folds.SumOfRange | system/Collective.hpp:147 | adding 0..n-1 from 0 gives n(n-1)/2 |
| Reduction.Broadcast | system/Collective.hpp:81-85 | the wake-up loop sends exactly one wake-up per node, to node n at position n, all with the same value |
| Reduction.AmReduce | system/Collective.hpp:70-87 | the accumulator is Reducer(BaseVal or the running value, v); the count stays below N; the N-th arrival resets it and broadcasts, others just count |
| Reduction.AmReduceNoInit | system/Collective.hpp:120-137 | the first arrival becomes the accumulator, later ones fold in; the counting and broadcast are as in am_reduce |
| Reduction.RoundValueSnoc | system/Collective.hpp:75 | each further contribution folds onto the round's value so far |
| Reduction.RoundValueFirst | system/Collective.hpp:74-75 | the first arrival of a round starts the round's value, for both handlers |
| Reduction.RoundInProgress | system/Collective.hpp:74-80 | part-way through a round nothing is sent, the count is the arrivals and the accumulator is the fold so far |
| Reduction.RoundComplete | system/Collective.hpp:74-86 | after exactly N arrivals the count is 0 and every node gets one wake-up with the fold of all contributions |
| Reduction.CountStaysBelow | system/Collective.hpp:77-80 | between handler runs the count stays in 0..N-1, whatever arrives |
| Reduction.ArrivalOrderIrrelevant | system/Collective.hpp:146 | with a commutative, associative reducer the round's outcome is the same for every arrival order |
| Reduction.NodeIdSum | system/Collective.hpp:150-160 | nodes adding their ids from 0, in any order, are all woken with N(N-1)/2 |
| Reduction.NoInitSingleNode | system/Collective.hpp:124-135 | am_reduce_noinit on one node wakes it with its own value and resets the count |
| Reduction.NoInitAgreesWithIdentity | system/Collective.hpp:120-137 | when BaseVal is a left identity the no-init round and the BaseVal round agree |
| ArrayReduction.ElementCount | system/Collective.hpp:94 | sz / sizeof(T) is the number of whole elements in sz bytes |
| ArrayReduction.PayloadCount | system/Collective.hpp:94 | a payload of sizeof(T) * n bytes carries exactly n elements |
| ArrayReduction.FoldInto | system/Collective.hpp:103-105 | the first nelem elements are Reducer(rarray[i], val[i]), the rest untouched |
| ArrayReduction.AmReduceArray | system/Collective.hpp:90-117 | the N-th arrival broadcasts the combined first nelem elements and frees the array; other arrivals keep combined values below nelem and the old ones above |
| ArrayReduction.ArrayArrivals | system/Collective.hpp:96-100 | mid-round the array holds at least nelem elements |
| ArrayReduction.ColumnFoldsSnoc | system/Collective.hpp:103-105 | one more arriving array folds onto the column folds so far |
| ArrayReduction.ArrayRoundInProgress | system/Collective.hpp:96-107 | part-way through an array round nothing is sent and the array holds the column folds so far |
| ArrayReduction.ArrayRoundComplete | system/Collective.hpp:90-117 | a whole array round wakes every node once with result[i] = BaseVal folded with every node's array[i], frees the array and resets the count |
| ArrayReduction.ArrayRoundIsScalarRounds | system/Collective.hpp:178-179 | each position of an array round comes out as a scalar round on that position |
| Chunking.MaxPerMessage | system/Collective.hpp:183 | maxn = 2048 / sizeof(T) is at least 1 exactly when sizeof(T) <= 2048 |
| Chunking.OversizeLoopStalls | system/Collective.hpp:183-187 | for sizeof(T) > 2048 maxn is 0, the chunk at i is empty and i + maxn is i |
| Chunking.Chunk | system/Collective.hpp:186 | the chunk at i starts at i, ends by nelem and holds 1..maxn elements |
| Chunking.Plan | system/Collective.hpp:185-186 | every chunk the loop visits holds 1..maxn elements and ends by nelem |
| Chunking.ChunkPlan | system/Collective.hpp:181-189 | the loop hands on exactly the chunks of Plan, in order |
| Chunking.PlanShape | system/Collective.hpp:185-187 | chunk k starts at k * maxn, and each chunk ends before the next begins |
| Chunking.PlanCoversOnce | system/Collective.hpp:185-187 | every element below nelem lies in exactly one chunk |
| Chunking.WriteAt | system/Collective.hpp:65 | memcpy writes vals at the offset and leaves every other element |
| Chunking.Slices | system/Collective.hpp:187 | each node sends its array + start, len elements |
| Chunking.ChunkResultIsSlice | system/Collective.hpp:187 | a chunk's round reduces exactly its part of the whole vector |
| Chunking.OneMessage | system/Collective.hpp:164-176 | a chunk's wake-up changes no buffer size and, with a result buffer, leaves the array alone |
| Chunking.OneMessageWrites | system/Collective.hpp:65 | the wake-up writes the broadcast values at the destination and keeps every other element of the target |
| Chunking.ChunkFits | system/Collective.hpp:166 | every chunk of the loop passes the nelem <= maxn check and fits the caller's buffers |
| Chunking.DeliverFrom | system/Collective.hpp:185-188 | the loop from i on changes no buffer size and, with a result buffer, leaves the array alone |
| Chunking.DeliverFromStep | system/Collective.hpp:185-188 | the loop from i is the chunk at i followed by the loop from i + maxn |
| Chunking.DeliversNext | system/Collective.hpp:185-188 | the outcome of the loop from i is the outcome from i + maxn after the chunk at i |
| Chunking.AllreduceAsWritten | system/Collective.hpp:181-189 | the call as written changes no buffer size and, with a result buffer, leaves the array alone |
| Chunking.Allreduce | system/Collective.hpp:178-189 | the corrected call changes no buffer size and, with a result buffer, leaves the array alone |
| Chunking.StepCombines | system/Collective.hpp:185-187 | the chunk at i followed by the chunks from i + maxn write i..nelem-1 |
| Chunking.ChunkLands | system/Collective.hpp:168-169 | with the destination shifted, a chunk's values land at its own positions of the target |
| Chunking.DeliverFromWrites | system/Collective.hpp:185-188 | the loop from i writes the reduced vector at positions i..nelem-1 of the target and nothing else |
| Chunking.AllreduceDelivers | system/Collective.hpp:178-179 | result[i] (array[i] when result is NULL) is BaseVal folded with every node's array[i] for all i < nelem, and nothing else changes |
| Chunking.InPlaceIgnoresShift | system/Collective.hpp:168 | without a result buffer the shifted and unshifted loops agree |
| Chunking.AsWrittenInPlace | system/Collective.hpp:168 | called without a result buffer, the code as written does what the vector reduction promises |
| Chunking.OneElementChunks | system/Collective.hpp:183-186 | with 2048-byte elements, two elements go in two one-element chunks |
| Chunking.OneElementRounds | system/Collective.hpp:179 | one node adding [5, 7] gets rounds [5] and [7], and the vector reduces to [5, 7] |
| Chunking.AsWrittenOverwritesChunks | system/Collective.hpp:187 | as written, that call leaves the result buffer [7, 0] |
| Chunking.ShiftedKeepsChunks | system/Collective.hpp:179 | with each chunk copied to result + i, the result buffer is [5, 7] |

## Left out

- Logging, `dump`, the `operator<<` printers and the node-0 `CHECK` in the handlers are not modelled. They write output or abort, and change no state the model tracks.
- The base pointer (`base_`) and the pointer casts are left out; addresses are offsets into the arena.
- Integers are unbounded. The arena size is bounded by `MaxArena` in preconditions, and the node counter and `int64_t` counters cannot overflow.
- Buddy.Malloc: requires 1 <= request <= 2^63, so it does not model `next_largest_power_of_2` wrapping to 0 above 2^63, nor `malloc(0)`, whose rounding gives 0.
- `assert` in `free` becomes a `None` result (`BuddyFree.Free`). The `add_to_chunk_map` assert becomes a precondition, which every caller meets.
- Free-list slots (iterators stored in each chunk) are not modelled. Erasing a slot removes the first occurrence of the offset, which is the same because a list holds each offset once (`HeapState.ClassNoDup`).
- The transport is abstract:
  - `Grappa_call_on`, `Grappa_suspend` and `Grappa_wake` are not modelled, and neither is the `reducing_thread` static.
  - A handler run returns the wake-ups it would send, in order.
  - A round is the handler run once per contribution.
- Only one reduction runs at a time, as the source requires. Concurrent rounds and the barrier behaviour are not modelled.
- The array round's `delete[]` is modelled as resetting the accumulator to the empty array.
- `Grappa_allreduce(T myval)` and `Grappa_allreduce_noinit(T myval)` are modelled through their handlers: every node calls the handler once. Their thread suspension is not modelled.
- Chunking.DeliverFrom: takes the reduced vector as data and copies each chunk's part of it. The round that computes a chunk is connected to that part separately, by `Chunking.ChunkResultIsSlice` and `ArrayReduction.ArrayRoundComplete`.
- ArrayReduction.AmReduceArray: requires, mid-round, an accumulator at least as long as the payload's element count. A longer payload makes the source write past the end of `rarray`, which is undefined behaviour, so the model does not say what happens then.
- Chunking.OneMessage: `array` and `result` are separate sequences in `Buffers`, so a result buffer that overlaps the caller's array is not modelled. The source does not forbid such an overlap, but the model makes no promise for it.
- Reduction.NoInitAgreesWithIdentity: connects the no-init round to the BaseVal round only when BaseVal is a left identity. Order independence of the no-init round is not stated on its own.
- The flat combiner and the message classes are used by other parts of the runtime, not by the allocator or these collectives. They are not part of this model.

## Findings

| source | as written | input that shows it | evidently intended | confidence | as-written member | corrected member |
|---|---|---|---|---|---|---|
| system/Allocator.hpp:184-185 | a remaining length that is not a power of two is carved by `next_largest_power_of_2(size / 2)`. For 2^k + 1 bytes that is 2^(k-1), half the largest chunk that fits, and later chunks are not aligned to their sizes. | `Allocator(base, 5)` carves 2, 1, 2 at 0, 2, 3; `malloc(4)` then throws with 5 bytes free | carve the largest power of two that fits, so every chunk is aligned to its size and a 4-byte chunk sits at 0 | not executed; high | Buddy.Construct, AllocatorExamples.CarveFiveRefusesFour | Buddy.ConstructAligned, AllocatorExamples.AlignedFiveGrantsFour |
| system/Collective.hpp:187 | every chunk is passed the same `result` pointer, so with a result buffer each chunk's wake-up copies its values to result[0..n) | sizeof(T) = 2048, one node, array [5, 7], nelem 2, result buffer [0, 0]: result ends [7, 0] | pass `result + i`, as the vector reduction documents result[i] for all i; result ends [5, 7] | not executed; high | Chunking.AllreduceAsWritten, Chunking.AsWrittenOverwritesChunks | Chunking.Allreduce, Chunking.AllreduceDelivers, Chunking.ShiftedKeepsChunks |
| system/Collective.hpp:183-187 | `maxn = 2048 / sizeof(T)` is 0 for an element wider than 2048 bytes, and the loop steps `i += maxn` | sizeof(T) = 4096, nelem = 1: the chunk at 0 is empty and i stays 0, so the loop sends empty rounds forever | refuse element types wider than a message, so every chunk holds 1..maxn elements and the loop ends | not executed; high | Chunking.OversizeLoopStalls | Chunking.ChunkPlan, Chunking.PlanCoversOnce |

=== FILE: allocator_examples.dfy ===
/** Worked examples of the allocator, each derived from the general
    contracts: the arena of 5 the constructor carves unevenly, and
    malloc(100) followed by free on an arena of 1024. */
module AllocatorExamples {
  import opened Bits
  import opened HeapState
  import opened Buddy
  import opened Wrappers
  import opened BuddyFree
  import opened ByteCounts

  /** An arena of 5 is carved into chunks of 2, 1 and 2 at offsets 0, 2
      and 3. */
  lemma CarveFive()
    ensures Construct(5).chunks == map[0 := Chunk(false, 0, 2), 2 := Chunk(false, 2, 1), 3 := Chunk(false, 3, 2)]
  {
    var e := Allocator(5, map[], map[]);
    CarvedSizes();
    var b1 := PlaceChunk(e, 0, 2);
    CarveFiveRest(b1);
    assert Construct(5) == Carve(b1, 2, 5);
  }

  /** The sizes carved off 5, 3 and 2 remaining bytes. */
  lemma CarvedSizes()
    ensures CarvedSize(5) == 2 && CarvedSize(3) == 1 && CarvedSize(2) == 2
  {
    CarvedFromFive();
    CarvedFromThree();
    assert IsPow2(2);
  }

  lemma CarvedFromFive()
    ensures CarvedSize(5) == 2
  {
    assert !IsPow2(5);
    assert NextPow2(5 / 2) == 2;
  }

  lemma CarvedFromThree()
    ensures CarvedSize(3) == 1
  {
    assert !IsPow2(3);
    assert NextPow2(3 / 2) == 1;
  }

  lemma CarveFiveRest(b1: Allocator)
    requires Carving(b1, 2) && b1.chunks == map[0 := Chunk(false, 0, 2)]
    ensures Carve(b1, 2, 5).chunks == map[0 := Chunk(false, 0, 2), 2 := Chunk(false, 2, 1), 3 := Chunk(false, 3, 2)]
  {
    CarvedSizes();
    var b2 := PlaceChunk(b1, 2, 1);
    CarveFiveLast(b2);
    assert Carve(b1, 2, 5) == Carve(b2, 3, 5);
  }

  lemma CarveFiveLast(b2: Allocator)
    requires Carving(b2, 3) && b2.chunks == map[0 := Chunk(false, 0, 2), 2 := Chunk(false, 2, 1)]
    ensures Carve(b2, 3, 5).chunks == map[0 := Chunk(false, 0, 2), 2 := Chunk(false, 2, 1), 3 := Chunk(false, 3, 2)]
  {
    CarvedSizes();
    var b3 := PlaceChunk(b2, 3, 2);
    assert Carve(b2, 3, 5) == Carve(b3, 5, 5) == b3;
  }

  /** Every size class in the free lists is the size of some free chunk. */
  lemma ClassHasChunk(a: Allocator, s: int)
    requires Valid(a) && s in a.freeLists
    ensures exists k :: k in a.chunks && a.chunks[k] == Chunk(false, k, s)
  {
    assert Listed(a, s, a.freeLists[s][0]);
  }

  /** When every chunk is smaller than `bound`, so is every size class. */
  lemma ClassesBelow(a: Allocator, bound: int)
    requires Valid(a) && forall k :: k in a.chunks ==> a.chunks[k].size < bound
    ensures forall s :: s in a.freeLists ==> s < bound
  {
    forall s | s in a.freeLists
      ensures s < bound
    {
      ClassHasChunk(a, s);
    }
  }

  lemma RoundsToFour()
    ensures NextPow2(4) == 4
  {
  }

  /** On the arena of 5 as carved by the constructor, malloc(4) finds no
      class of 4 or more and throws, although 5 bytes are free. */
  lemma CarveFiveRefusesFour()
    ensures Malloc(Construct(5), 4).OutOfMemory?
  {
    CarveFive();
    ClassesBelow(Construct(5), 4);
    RoundsToFour();
  }

  /** A free chunk whose size no other chunk has is alone in its class. */
  lemma OnlyOfItsSize(a: Allocator, k: int, s: int)
    requires Valid(a) && k in a.chunks && a.chunks[k] == Chunk(false, k, s)
    requires forall j :: j in a.chunks && j != k ==> a.chunks[j].size != s
    ensures s in a.freeLists && a.freeLists[s] == [k]
  {
    assert Listed(a, s, k);
    var l := a.freeLists[s];
    assert forall i :: 0 <= i < |l| ==> l[i] == k by {
      forall i | 0 <= i < |l|
        ensures l[i] == k
      {
        assert Listed(a, s, l[i]);
      }
    }
    AllEqualCount(l, k);
    NoDupCount(l, k);
  }

  /** A list holding only k holds it as many times as it is long. */
  lemma {:induction false} AllEqualCount(l: seq<int>, k: int)
    requires forall i :: 0 <= i < |l| ==> l[i] == k
    ensures multiset(l)[k] == |l|
    decreases |l|
  {
    if l != [] {
      assert l == [l[0]] + l[1..];
      AllEqualCount(l[1..], k);
    }
  }

  /** A list without duplicates holds each value at most once. */
  lemma {:induction false} NoDupCount(l: seq<int>, x: int)
    requires NoDup(l)
    ensures multiset(l)[x] <= 1
    decreases |l|
  {
    if l != [] {
      assert l == [l[0]] + l[1..];
      NoDupCount(l[1..], x);
      if l[0] == x {
        assert x !in l[1..];
      }
    }
  }

  /** Next to a chunk of size c at offset 0, every other chunk fits in
      what is left of the arena. */
  lemma RestOfArena(a: Allocator)
    requires Valid(a) && 0 in a.chunks
    ensures forall j :: j in a.chunks && j != 0 ==> a.chunks[j].size <= a.size - a.chunks[0].size
  {
    forall j | j in a.chunks && j != 0
      ensures a.chunks[j].size <= a.size - a.chunks[0].size
    {
      assert Apart(a.chunks, 0, j);
    }
  }

  /** When exactly one chunk is large enough for the rounded request and
      it has exactly that size, malloc hands out that chunk whole. */
  lemma MallocExactFit(a: Allocator, request: int, k: int)
    requires Valid(a) && 1 <= request <= MaxRequest
    requires k in a.chunks && a.chunks[k] == Chunk(false, k, NextPow2(request))
    requires forall j :: j in a.chunks && j != k ==> a.chunks[j].size < NextPow2(request)
    ensures Malloc(a, request).Allocated? && Malloc(a, request).offset == k
  {
    var want := NextPow2(request);
    OnlyOfItsSize(a, k, want);
    var cls := DonorClass(a, want).value;
    ClassHasChunk(a, cls);
  }

  /** The aligned construction puts the largest power of two that fits at
      offset 0, and malloc of exactly that size returns offset 0. */
  lemma AlignedGrantsLargest(size: int)
    requires 1 <= size <= MaxArena && LargestPow2AtMost(size) <= MaxRequest
    ensures Malloc(ConstructAligned(size), LargestPow2AtMost(size)).Allocated?
    ensures Malloc(ConstructAligned(size), LargestPow2AtMost(size)).offset == 0
  {
    var a := ConstructAligned(size);
    var c := LargestPow2AtMost(size);
    NextPow2OfPow2(c);
    RestOfArena(a);
    MallocExactFit(a, c, 0);
  }

  lemma LargestInFive()
    ensures LargestPow2AtMost(5) == 4
  {
  }

  /** With every chunk aligned to its own size, the same arena holds a
      chunk of 4 at offset 0, and malloc(4) returns offset 0. */
  lemma AlignedFiveGrantsFour()
    ensures Malloc(ConstructAligned(5), 4).Allocated?
    ensures Malloc(ConstructAligned(5), 4).offset == 0
  {
    LargestInFive();
    AlignedGrantsLargest(5);
  }

  // ---------------------------------------------------------------------
  // A 1024-byte arena: malloc(100) then free(896)

  /** 2^7 to 2^10 are powers of two. */
  lemma SmallPowers()
    ensures IsPow2(128) && IsPow2(256) && IsPow2(512) && IsPow2(1024)
  {
    assert IsPow2(1) && IsPow2(2) && IsPow2(4) && IsPow2(8);
    assert IsPow2(16) && IsPow2(32) && IsPow2(64);
  }

  /** The powers of two from 128 to 1024. */
  lemma Pow2Between(n: int)
    requires IsPow2(n) && 128 <= n <= 1024
    ensures n == 128 || n == 256 || n == 512 || n == 1024
  {
    SmallPowers();
    if n > 128 {
      Pow2Below(128, n);
      if n > 256 {
        Pow2Below(256, n);
        if n > 512 {
          Pow2Below(512, n);
        }
      }
    }
  }

  /** A power of two p with p / 2 < v <= p is what v rounds up to. */
  lemma RoundsTo(v: int, p: int)
    requires v >= 1 && IsPow2(p) && p / 2 < v <= p
    ensures NextPow2(v) == p
  {
    var q := NextPow2(v);
    if q < p {
      Pow2Below(q, p);
    } else if p < q {
      Pow2Below(p, q);
    }
  }

  /** A valid allocator whose chunk at 0 is free and spans the arena is
      the freshly constructed state of a power-of-two arena: one chunk,
      listed alone under its size. */
  lemma WholeArena(a: Allocator)
    requires Valid(a) && 0 in a.chunks && a.chunks[0] == Chunk(false, 0, a.size)
    ensures a == Allocator(a.size, map[0 := Chunk(false, 0, a.size)], map[a.size := [0]])
  {
    assert a.chunks.Keys == {0} by {
      forall j | j in a.chunks
        ensures j == 0
      {
        assert Apart(a.chunks, 0, j);
      }
    }
    assert a.chunks == map[0 := Chunk(false, 0, a.size)];
    OnlyOfItsSize(a, 0, a.size);
    assert a.freeLists.Keys == {a.size} by {
      forall s | s in a.freeLists
        ensures s == a.size
      {
        assert Listed(a, s, a.freeLists[s][0]);
      }
    }
    assert a.freeLists == map[a.size := [0]];
  }

  /** Constructing 1024 bytes gives one free chunk of 1024 at offset 0. */
  lemma ConstructWhole()
    ensures Construct(1024) == Allocator(1024, map[0 := Chunk(false, 0, 1024)], map[1024 := [0]])
  {
    SmallPowers();
    var a := Construct(1024);
    assert CarvedSize(1024) == 1024;
    WholeArena(a);
  }

  /** num_chunks() of a fresh 1024-byte arena is 1. */
  lemma FreshArenaOneChunk()
    ensures NumChunks(Construct(1024)) == 1
  {
    ConstructWhole();
  }

  /** Freeing the chunk at 896 of the state malloc(100) leaves merges it
      with 768, then 512, then 0, and the arena is one chunk again. */
  lemma FreeRestoresArena(h: Allocator)
    requires Valid(h) && h.size == 1024
    requires 0 in h.chunks && h.chunks[0] == Chunk(false, 0, 512)
    requires 512 in h.chunks && h.chunks[512] == Chunk(false, 512, 256)
    requires 768 in h.chunks && h.chunks[768] == Chunk(false, 768, 128)
    requires 896 in h.chunks && h.chunks[896] == Chunk(true, 896, 128)
    ensures Free(h, 896) == Some(Allocator(1024, map[0 := Chunk(false, 0, 1024)], map[1024 := [0]]))
  {
    var b := AddToFreeList(h, 896);
    ReleaseChunk(h, 896);
    var r := MergeBuddies(b, 896);
    assert Free(h, 896) == Some(r.heap);
    var at, ns := r.at, r.heap.chunks[r.at].size;
    assert at + ns == 1024;
    Pow2Between(ns);
    assert 0 in b.chunks && 512 in b.chunks && 768 in b.chunks;
    StopsOnlyWhole(r.heap, at, ns);
    WholeArena(r.heap);
  }

  /** Where the merging of 896 can stop: below 1024 bytes the merged chunk
      still has its free buddy of the same size. */
  lemma StopsOnlyWhole(a: Allocator, at: int, ns: int)
    requires at in a.chunks && a.chunks[at] == Chunk(false, at, ns) && at + ns == 1024 && !CanMerge(a, at)
    requires ns == 128 || ns == 256 || ns == 512 || ns == 1024
    requires ns == 128 ==> 768 in a.chunks && a.chunks[768] == Chunk(false, 768, 128)
    requires ns == 256 ==> 512 in a.chunks && a.chunks[512] == Chunk(false, 512, 256)
    requires ns == 512 ==> 0 in a.chunks && a.chunks[0] == Chunk(false, 0, 512)
    ensures at == 0 && ns == 1024
  {
    SmallPowers();
    XorPow2(at, ns);
  }

  /** malloc(100) on the whole 1024-byte arena: it rounds up to 128 and
      splits the arena down, keeping the top, so it returns offset 896 and
      leaves free chunks of 512, 256 and 128 below it. */
  lemma MallocHundred(w: Allocator)
    requires w == Allocator(1024, map[0 := Chunk(false, 0, 1024)], map[1024 := [0]]) && Valid(w)
    ensures Malloc(w, 100).Allocated? && Malloc(w, 100).offset == 896
    ensures var h := Malloc(w, 100).heap;
            && Valid(h) && h.size == 1024
            && 0 in h.chunks && h.chunks[0] == Chunk(false, 0, 512)
            && 512 in h.chunks && h.chunks[512] == Chunk(false, 512, 256)
            && 768 in h.chunks && h.chunks[768] == Chunk(false, 768, 128)
            && 896 in h.chunks && h.chunks[896] == Chunk(true, 896, 128)
  {
    SmallPowers();
    RoundsTo(100, 128);
    assert DonorClass(w, 128) == Some(1024);
    assert LowHalf(0, 1024, 128) == 768 && LowHalf(0, 1024, 256) == 512 && LowHalf(0, 1024, 512) == 0;
  }

  /** In a fresh 1024-byte arena malloc(100) returns offset 896, and
      freeing it coalesces everything back into the single 1024-byte
      chunk the constructor made. */
  lemma MallocThenFreeRestores()
    ensures Malloc(Construct(1024), 100).Allocated?
    ensures Malloc(Construct(1024), 100).offset == 896
    ensures Free(Malloc(Construct(1024), 100).heap, 896) == Some(Construct(1024))
  {
    ConstructWhole();
    var w := Construct(1024);
    MallocHundred(w);
    FreeRestoresArena(Malloc(w, 100).heap);
  }

  /** A request larger than the arena finds no class and changes nothing. */
  lemma MallocBeyondArena(a: Allocator, request: int)
    requires Valid(a) && a.size < request <= MaxRequest
    ensures Malloc(a, request).OutOfMemory? && Malloc(a, request).heap == a
  {
    ClassesBounded(a);
  }
}

=== FILE: bits.dfy ===
/** Integer facts the buddy allocator relies on: powers of two, the
    round-up-to-a-power-of-two helper and bitwise exclusive or on
    non-negative integers. */
module Bits {

  /** n is a positive power of two. */
  predicate IsPow2(n: int)
    decreases if n < 1 then 0 else n
  {
    n >= 1 && (n == 1 || (n % 2 == 0 && IsPow2(n / 2)))
  }

  /** Of two powers of two, the smaller one is at most half the larger one. */
  lemma {:induction false} Pow2Gap(p: int, q: int)
    requires IsPow2(p) && IsPow2(q) && p < q
    ensures 2 * p <= q
    ensures q % p == 0
    decreases q
  {
    if q / 2 == p {
    } else if q / 2 > p {
      Pow2Gap(p, q / 2);
      DoubleMod(q / 2, p);
    } else {
      Pow2Gap(q / 2, p);
    }
  }

  /** Of two powers of two, the smaller one is at most half the larger one
      (Pow2Gap without the divisibility fact). */
  lemma Pow2Below(p: int, q: int)
    requires IsPow2(p) && IsPow2(q) && p < q
    ensures 2 * p <= q
  {
    Pow2Gap(p, q);
  }

  lemma DoubleMod(m: int, p: int)
    requires p >= 1 && m % p == 0
    ensures (2 * m) % p == 0
  {
    var t := m / p;
    assert 2 * m == p * (2 * t) + 0 by {
      assert m == p * t;
    }
    DivModUnique(2 * m, p, 2 * t, 0);
  }

  lemma ModAdd(x: int, y: int, p: int)
    requires p >= 1 && x % p == 0 && y % p == 0
    ensures (x + y) % p == 0
  {
    var qx, qy := x / p, y / p;
    assert x + y == p * (qx + qy) + 0 by {
      assert x == p * qx && y == p * qy;
    }
    DivModUnique(x + y, p, qx + qy, 0);
  }

  /** Quotient and remainder are determined by a == p * q + r, 0 <= r < p. */
  lemma DivModUnique(a: int, p: int, q: int, r: int)
    requires p >= 1 && a == p * q + r && 0 <= r < p
    ensures a / p == q && a % p == r
  {
    var q', r' := a / p, a % p;
    assert p * (q - q') == r' - r;
    if q - q' >= 1 {
      MulAtLeast(p, q - q');
    } else if q' - q >= 1 {
      MulAtLeast(p, q' - q);
    }
  }

  lemma MulAtLeast(p: int, d: int)
    requires p >= 1 && d >= 1
    ensures p * d >= p
  {
    assert p * d == p * (d - 1) + p;
  }

  /** Doubling and halving keep a number a power of two. */
  lemma Pow2Double(p: int)
    requires IsPow2(p)
    ensures IsPow2(2 * p)
  {
    assert (2 * p) / 2 == p;
  }

  /** The value of next_largest_power_of_2(v) for v >= 1: the bit trick
      (decrement, smear the highest set bit downwards, increment) yields
      the least power of two that is at least v. */
  function NextPow2(v: int): (p: int)
    requires v >= 1
    ensures IsPow2(p) && v <= p
    ensures p / 2 < v
    decreases v
  {
    if v == 1 then 1
    else
      var q := NextPow2((v + 1) / 2);
      Pow2Double(q);
      2 * q
  }

  /** NextPow2 is below every other power of two that covers v. */
  lemma NextPow2IsLeast(v: int, q: int)
    requires v >= 1 && IsPow2(q) && v <= q
    ensures NextPow2(v) <= q
  {
    var p := NextPow2(v);
    if q < p {
      Pow2Gap(q, p);
    }
  }

  /** A power of two rounds to itself. */
  lemma NextPow2OfPow2(p: int)
    requires IsPow2(p)
    ensures NextPow2(p) == p
  {
    NextPow2IsLeast(p, p);
  }

  /** The largest power of two that fits in n. */
  function LargestPow2AtMost(n: int): (p: int)
    requires n >= 1
    ensures IsPow2(p) && p <= n < 2 * p
    decreases n
  {
    if n == 1 then 1
    else
      var q := LargestPow2AtMost(n / 2);
      Pow2Double(q);
      2 * q
  }

  /** Bitwise exclusive or of two non-negative integers: addition without
      carries, so never above the sum and differing from it by an even
      amount (twice the carried bits). */
  function Xor(a: nat, b: nat): (r: nat)
    ensures r <= a + b && (a + b - r) % 2 == 0
    decreases a + b
  {
    if a == 0 then b
    else if b == 0 then a
    else 2 * Xor(a / 2, b / 2) + (if a % 2 == b % 2 then 0 else 1)
  }

  lemma DivDiv(a: nat, b: int)
    requires b >= 1
    ensures a / 2 / b == a / (2 * b)
  {
    var q := a / (2 * b);
    var r := a % (2 * b);
    assert a == (2 * b) * q + r && 0 <= r < 2 * b;
    assert a / 2 == b * q + r / 2;
    DivModUnique(a / 2, b, q, r / 2);
  }

  /** Flipping the single bit of a power of two moves the address by
      exactly that power: up when the bit was clear, down when it was set.
      This is why an XOR buddy is always adjacent. */
  lemma {:induction false} XorPow2(a: nat, n: int)
    requires IsPow2(n)
    ensures Xor(a, n) == if (a / n) % 2 == 0 then a + n else a - n
    decreases n
  {
    if n == 1 {
      if a != 0 {
        assert Xor(a / 2, 0) == a / 2;
      }
    } else if a != 0 {
      XorPow2(a / 2, n / 2);
      DivDiv(a, n / 2);
    }
  }
}

=== FILE: buddy.dfy ===
/** The buddy allocator's operations: construction over an arena, malloc
    (round up, find a donor, halve it keeping the upper half) and free
    (reinsert, then coalesce with XOR buddies). */
module Buddy {
  import opened Bits
  import opened HeapState
  import opened ByteCounts
  import opened Wrappers
  import opened Rounding

  /** What malloc hands back: the new state and the chunk's offset, or
      Allocator::Exception with the state untouched. */
  datatype MallocResult = Allocated(heap: Allocator, offset: int) | OutOfMemory(heap: Allocator)

  /** Largest request the 64-bit rounding in malloc handles. */
  const MaxRequest: int := MaxRounded

  // ---------------------------------------------------------------------
  // Marking a single chunk in use or free

  /** Taking a free chunk off its free list marks it in use, keeps the
      invariant and adds its size to the bytes in use. */
  lemma TakeChunk(a: Allocator, k: int)
    requires Valid(a) && k in a.chunks && !a.chunks[k].inUse
    ensures Valid(RemoveFromFreeList(a, k))
    ensures BytesInUse(RemoveFromFreeList(a, k)) == BytesInUse(a) + a.chunks[k].size
    ensures BytesFree(RemoveFromFreeList(a, k)) == BytesFree(a) - a.chunks[k].size
    ensures forall s :: !Listed(RemoveFromFreeList(a, k), s, k)
  {
    var r := RemoveFromFreeList(a, k);
    TilesAfterMarking(a.chunks, a.size, k, true);
    assert forall j :: j != k ==> Contribution(r.chunks, j, InUseOnly) == Contribution(a.chunks, j, InUseOnly);
    SumPoint(a.chunks, r.chunks, 0, a.size, InUseOnly, k);
    assert forall j :: j != k ==> Contribution(r.chunks, j, FreeOnly) == Contribution(a.chunks, j, FreeOnly);
    SumPoint(a.chunks, r.chunks, 0, a.size, FreeOnly, k);
  }

  /** Putting an in-use chunk back on its free list keeps the invariant
      and moves its size from the bytes in use to the bytes free. */
  lemma ReleaseChunk(a: Allocator, k: int)
    requires Valid(a) && k in a.chunks && a.chunks[k].inUse
    ensures Valid(AddToFreeList(a, k))
    ensures BytesInUse(AddToFreeList(a, k)) == BytesInUse(a) - a.chunks[k].size
    ensures BytesFree(AddToFreeList(a, k)) == BytesFree(a) + a.chunks[k].size
  {
    var r := AddToFreeList(a, k);
    assert !Listed(a, a.chunks[k].size, k);
    TilesAfterMarking(a.chunks, a.size, k, false);
    assert forall j :: j != k ==> Contribution(r.chunks, j, InUseOnly) == Contribution(a.chunks, j, InUseOnly);
    SumPoint(a.chunks, r.chunks, 0, a.size, InUseOnly, k);
    assert forall j :: j != k ==> Contribution(r.chunks, j, FreeOnly) == Contribution(a.chunks, j, FreeOnly);
    SumPoint(a.chunks, r.chunks, 0, a.size, FreeOnly, k);
  }

  // ---------------------------------------------------------------------
  // Construction

  predicate AllFree(a: Allocator)
  {
    forall k :: k in a.chunks ==> !a.chunks[k].inUse
  }

  /** The state part-way through construction: [0, offset) is tiled by
      free chunks that sit on their free lists. */
  ghost predicate Carving(a: Allocator, offset: int)
  {
    0 <= offset && Tiles(a.chunks, offset) && FreeListsMirror(a) && AllFree(a)
  }

  /** Track a new free chunk of size c at offset and list it. */
  function PlaceChunk(a: Allocator, offset: int, c: int): (r: Allocator)
    requires Carving(a, offset) && IsPow2(c)
    ensures Carving(r, offset + c) && r.size == a.size
    ensures r.chunks == a.chunks[offset := Chunk(false, offset, c)]
  {
    assert offset !in a.chunks;
    var b := AddToChunkMap(a, Chunk(false, offset, c));
    assert forall s, j :: Listed(b, s, j) <==> Listed(a, s, j);
    var r := AddToFreeList(b, offset);
    TilesAfterPlacing(a.chunks, offset, Chunk(false, offset, c));
    assert r.chunks == a.chunks[offset := Chunk(false, offset, c)];
    assert FreeListsMirror(r);
    r
  }

  /** The size the constructor carves off a remaining length: the whole
      rest when it is a power of two, else next_largest_power_of_2 of half
      of it (NextPow2 is that function's value: Rounding.SmearRounds). */
  function CarvedSize(remaining: int): (c: int)
    requires remaining >= 1
    ensures IsPow2(c) && c <= remaining
  {
    if IsPow2(remaining) then remaining
    else NextPow2(remaining / 2)
  }

  /** The constructor's loop: carve [offset, end) into free chunks. */
  function Carve(a: Allocator, offset: int, end: int): (r: Allocator)
    requires Carving(a, offset) && offset <= end
    ensures Carving(r, end) && r.size == a.size
    ensures forall k :: k in a.chunks ==> k in r.chunks && r.chunks[k] == a.chunks[k]
    ensures offset < end ==> offset in r.chunks && r.chunks[offset].size == CarvedSize(end - offset)
    ensures forall o :: o in r.chunks && o !in a.chunks ==> offset <= o < end && r.chunks[o].size == CarvedSize(end - o)
    decreases end - offset
  {
    if offset == end then a
    else
      var c := CarvedSize(end - offset);
      var b := PlaceChunk(a, offset, c);
      var r := Carve(b, offset + c, end);
      assert offset in b.chunks && r.chunks[offset] == b.chunks[offset];
      r
  }

  /** Allocator(base, size): carves the arena into free power-of-two
      chunks that tile it exactly. A zero size is refused; a negative one
      leaves the allocator empty, as the loop never runs. */
  function Construct(size: int): (r: Allocator)
    requires size != 0 && -MaxArena - 1 <= size <= MaxArena
    ensures r.size == size
    ensures size > 0 ==> Valid(r) && AllFree(r)
    ensures size > 0 ==> 0 in r.chunks && r.chunks[0].size == CarvedSize(size)
    ensures size > 0 ==> forall o :: o in r.chunks ==> 0 <= o < size && r.chunks[o].size == CarvedSize(size - o)
    ensures size < 0 ==> r.chunks == map[] && r.freeLists == map[]
  {
    var empty := Allocator(size, map[], map[]);
    if size < 0 then empty else Carve(empty, 0, size)
  }

  /** Every chunk starts at a multiple of its own size. */
  ghost predicate Aligned(chunks: map<int, Chunk>)
  {
    forall k :: k in chunks ==> chunks[k].size != 0 && k % chunks[k].size == 0
  }

  /** offset is a multiple of every power of two up to `remaining`. */
  ghost predicate AlignedFor(offset: int, remaining: int)
  {
    forall p :: IsPow2(p) && p <= remaining ==> offset % p == 0
  }

  /** Construction as evidently intended: each step carves off the
      largest power of two that fits in what is left of [offset, end). */
  function CarveAligned(a: Allocator, offset: int, end: int): (r: Allocator)
    requires Carving(a, offset) && offset <= end && Aligned(a.chunks) && AlignedFor(offset, end - offset)
    ensures Carving(r, end) && r.size == a.size
    ensures Aligned(r.chunks)
    ensures forall k :: k in a.chunks ==> k in r.chunks && r.chunks[k] == a.chunks[k]
    ensures offset < end ==> offset in r.chunks && r.chunks[offset].size == LargestPow2AtMost(end - offset)
    decreases end - offset
  {
    if offset == end then a
    else
      var c := LargestPow2AtMost(end - offset);
      var b := PlaceChunk(a, offset, c);
      AlignedStep(a, b, offset, end - offset, c);
      assert offset in b.chunks && b.chunks[offset].size == c;
      CarveAligned(b, offset + c, end)
  }

  /** Placing the largest power of two that fits keeps every chunk
      aligned and leaves the next offset aligned to whatever fits next. */
  lemma AlignedStep(a: Allocator, b: Allocator, offset: int, remaining: int, c: int)
    requires Carving(a, offset) && remaining >= 1 && c == LargestPow2AtMost(remaining)
    requires b.chunks == a.chunks[offset := Chunk(false, offset, c)]
    requires Aligned(a.chunks) && AlignedFor(offset, remaining)
    ensures Aligned(b.chunks) && AlignedFor(offset + c, remaining - c)
  {
    forall p | IsPow2(p) && p <= remaining - c
      ensures (offset + c) % p == 0
    {
      Pow2Gap(p, c);
      ModAdd(offset, c, p);
    }
  }

  /** The corrected constructor: every chunk is aligned to its own size,
      and the chunk at offset 0 is the largest power of two in the arena. */
  function ConstructAligned(size: int): (r: Allocator)
    requires 1 <= size <= MaxArena
    ensures r.size == size && Valid(r) && AllFree(r) && Aligned(r.chunks)
    ensures 0 in r.chunks && r.chunks[0].size == LargestPow2AtMost(size)
  {
    CarveAligned(Allocator(size, map[], map[]), 0, size)
  }

  // ---------------------------------------------------------------------
  // malloc

  /** free_lists_.lower_bound(want): the smallest size class that is at
      least `want`. Classes are powers of two no larger than `limit`, so
      trying want, 2 * want, 4 * want, ... up to limit finds it. */
  function LowerBound(freeLists: map<int, seq<int>>, want: int, limit: int): (r: Option<int>)
    requires IsPow2(want)
    requires forall s {:trigger s in freeLists} :: s in freeLists ==> IsPow2(s) && s <= limit
    ensures r.Some? ==> r.value in freeLists && want <= r.value
    ensures r.Some? ==> forall s :: s in freeLists && want <= s ==> r.value <= s
    ensures r.None? <==> forall s :: s in freeLists ==> s < want
    decreases limit - want
  {
    if want > limit then None
    else if want in freeLists then Some(want)
    else
      assert forall s :: s in freeLists && want <= s ==> 2 * want <= s by {
        forall s | s in freeLists && want <= s
          ensures 2 * want <= s
        {
          Pow2Gap(want, s);
        }
      }
      Pow2Double(want);
      LowerBound(freeLists, 2 * want, limit)
  }

  /** Every size class of a valid allocator is a power of two that fits in
      the arena. */
  lemma ClassesBounded(a: Allocator)
    requires Valid(a)
    ensures forall s {:trigger s in a.freeLists} :: s in a.freeLists ==> IsPow2(s) && s <= a.size
  {
    forall s {:trigger s in a.freeLists} | s in a.freeLists
      ensures IsPow2(s) && s <= a.size
    {
      assert Listed(a, s, a.freeLists[s][0]);
    }
  }

  /** The size class malloc takes its donor chunk from, if any. */
  function DonorClass(a: Allocator, want: int): (r: Option<int>)
    requires Valid(a) && IsPow2(want)
    ensures r.Some? ==> r.value in a.freeLists && want <= r.value
    ensures r.Some? ==> forall s :: s in a.freeLists && want <= s ==> r.value <= s
    ensures r.None? <==> forall s :: s in a.freeLists ==> s < want
  {
    ClassesBounded(a);
    LowerBound(a.freeLists, want, a.size)
  }

  /** The free lists after halving chunk k of size 2 * h: k leaves class
      2 * h (which disappears if that empties it) and class h gains the
      upper half k + h in front of the lower half k. */
  function HalvedLists(freeLists: map<int, seq<int>>, k: int, h: int): map<int, seq<int>>
  {
    var l := RemoveFirst(ClassList(freeLists, 2 * h), k);
    var fl := if l == [] then freeLists - {2 * h} else freeLists[2 * h := l];
    fl[h := [k + h, k] + ClassList(freeLists, h)]
  }

  /** One pass of malloc's splitting loop: free chunk k of size 2h becomes
      a lower half at k and an upper half at k + h, both free and pushed
      onto the front of class h (the lower half first). */
  function Halve(a: Allocator, k: int, h: int): (r: Allocator)
    requires Valid(a) && k in a.chunks && !a.chunks[k].inUse && a.chunks[k].size == 2 * h && h >= 1
    ensures Valid(r) && r.size == a.size
    ensures r.chunks == a.chunks[k := Chunk(false, k, h)][k + h := Chunk(false, k + h, h)]
    ensures ClassList(r.freeLists, h) == [k + h, k] + ClassList(a.freeLists, h)
    ensures ClassList(r.freeLists, 2 * h) == RemoveFirst(ClassList(a.freeLists, 2 * h), k)
    ensures forall t :: t != h && t != 2 * h ==> ClassList(r.freeLists, t) == ClassList(a.freeLists, t)
  {
    HalveFits(a, k);
    var r := Allocator(a.size, a.chunks[k := Chunk(false, k, h)][k + h := Chunk(false, k + h, h)],
                       HalvedLists(a.freeLists, k, h));
    HalveSteps(a, k, h, r);
    HalveValid(a, k, r);
    r
  }

  /** Splitting a free chunk in two adds one chunk to num_chunks(). */
  lemma HalveAddsChunk(a: Allocator, k: int, h: int)
    requires Valid(a) && k in a.chunks && !a.chunks[k].inUse && a.chunks[k].size == 2 * h && h >= 1
    ensures NumChunks(Halve(a, k, h)) == NumChunks(a) + 1
  {
    HalveFits(a, k);
  }

  /** The calls malloc makes for one halving (source order):
      remove_from_free_list, shrink, add_to_free_list of the lower half,
      add_to_chunk_map and add_to_free_list of the upper half. */
  function HalveSequence(a: Allocator, k: int, h: int): (r: Allocator)
    requires k in a.chunks && NoDup(ClassList(a.freeLists, a.chunks[k].size)) && k + h !in a.chunks
    ensures r.size == a.size
    ensures r.chunks == a.chunks[k := a.chunks[k].(inUse := false, size := h)][k + h := Chunk(false, k + h, h)]
    ensures forall s, j {:trigger Listed(r, s, j)} :: Listed(r, s, j) <==>
              (Listed(a, s, j) && !(s == a.chunks[k].size && j == k)) || (s == h && (j == k || j == k + h))
  {
    var a1 := RemoveFromFreeList(a, k);
    var a2 := a1.(chunks := a1.chunks[k := a1.chunks[k].(size := h)]);
    var a3 := AddToFreeList(a2, k);
    var a4 := AddToChunkMap(a3, Chunk(false, k + h, h));
    AddToFreeList(a4, k + h)
  }

  /** The closed form of a halving is what the source's sequence of calls
      produces, and how its free lists look. */
  lemma HalveSteps(a: Allocator, k: int, h: int, r: Allocator)
    requires FreeListsMirror(a) && k in a.chunks && a.chunks[k] == Chunk(false, k, 2 * h) && h >= 1
    requires k + h !in a.chunks
    requires r == Allocator(a.size, a.chunks[k := Chunk(false, k, h)][k + h := Chunk(false, k + h, h)],
                            HalvedLists(a.freeLists, k, h))
    ensures r == HalveSequence(a, k, h)
    ensures ListsWellFormed(r.freeLists)
    ensures forall s, j {:trigger Listed(r, s, j)} :: Listed(r, s, j) <==>
              (Listed(a, s, j) && !(s == 2 * h && j == k)) || (s == h && (j == k || j == k + h))
    ensures ClassList(r.freeLists, h) == [k + h, k] + ClassList(a.freeLists, h)
  {
    var a1 := RemoveFromFreeList(a, k);
    var a2 := a1.(chunks := a1.chunks[k := a1.chunks[k].(size := h)]);
    var a3 := AddToFreeList(a2, k);
    var a4 := AddToChunkMap(a3, Chunk(false, k + h, h));
    var r' := AddToFreeList(a4, k + h);
    HalveListing(a, k, h, a1, a2, a3, a4, r');
    assert r'.chunks == r.chunks;
    assert ClassList(a1.freeLists, h) == ClassList(a.freeLists, h);
    assert r'.freeLists == r.freeLists;
  }

  /** Halving produces exactly what the source's sequence of free-list and
      chunk-map calls produces. */
  lemma HalveFollowsSource(a: Allocator, k: int)
    requires Valid(a) && k in a.chunks && !a.chunks[k].inUse && a.chunks[k].size >= 2
    ensures a.chunks[k].size / 2 + k !in a.chunks
    ensures Halve(a, k, a.chunks[k].size / 2) == HalveSequence(a, k, a.chunks[k].size / 2)
  {
    HalveFits(a, k);
    HalveSteps(a, k, a.chunks[k].size / 2, Halve(a, k, a.chunks[k].size / 2));
  }

  /** How the free lists look after the steps of one halving. */
  lemma HalveListing(a: Allocator, k: int, h: int, a1: Allocator, a2: Allocator, a3: Allocator, a4: Allocator, r: Allocator)
    requires FreeListsMirror(a) && k in a.chunks && a.chunks[k] == Chunk(false, k, 2 * h) && h >= 1
    requires k + h !in a.chunks
    requires a1 == RemoveFromFreeList(a, k)
    requires a2 == a1.(chunks := a1.chunks[k := a1.chunks[k].(size := h)])
    requires a3 == AddToFreeList(a2, k)
    requires k + h !in a3.chunks
    requires a4 == AddToChunkMap(a3, Chunk(false, k + h, h))
    requires r == AddToFreeList(a4, k + h)
    ensures ListsWellFormed(r.freeLists)
    ensures forall s, j {:trigger Listed(r, s, j)} :: Listed(r, s, j) <==>
              (Listed(a, s, j) && !(s == 2 * h && j == k)) || (s == h && (j == k || j == k + h))
    ensures ClassList(r.freeLists, h) == [k + h, k] + ClassList(a.freeLists, h)
  {
    assert a2.freeLists == a1.freeLists;
    assert !Listed(a, h, k);
    assert !Listed(a2, h, k);
    assert a4.freeLists == a3.freeLists;
    assert !Listed(a, h, k + h);
    assert !Listed(a4, h, k + h);
  }

  /** The upper half of a chunk starts at an untracked offset. */
  lemma HalveFits(a: Allocator, k: int)
    requires Valid(a) && k in a.chunks && a.chunks[k].size >= 2
    ensures k + a.chunks[k].size / 2 !in a.chunks
    ensures IsPow2(a.chunks[k].size / 2)
  {
    assert Apart(a.chunks, k, k + a.chunks[k].size / 2);
  }

  lemma HalveValid(a: Allocator, k: int, r: Allocator)
    requires Valid(a) && k in a.chunks && !a.chunks[k].inUse && a.chunks[k].size >= 2
    requires k + a.chunks[k].size / 2 !in a.chunks && IsPow2(a.chunks[k].size / 2)
    requires var h := a.chunks[k].size / 2;
             r.chunks == a.chunks[k := Chunk(false, k, h)][k + h := Chunk(false, k + h, h)]
    requires r.size == a.size && ListsWellFormed(r.freeLists)
    requires var h := a.chunks[k].size / 2;
             forall s, j {:trigger Listed(r, s, j)} :: Listed(r, s, j) <==>
               (Listed(a, s, j) && !(s == 2 * h && j == k)) || (s == h && (j == k || j == k + h))
    ensures Valid(r)
  {
    var h := a.chunks[k].size / 2;
    TilesAfterHalving(a.chunks, a.size, k, h);
    assert r.chunks == a.chunks[k := Chunk(a.chunks[k].inUse, k, h)][k + h := Chunk(false, k + h, h)];
    forall s, j | Listed(r, s, j)
      ensures j in r.chunks && r.chunks[j].size == s && !r.chunks[j].inUse
    {
      if j != k && j != k + h {
        assert Listed(a, s, j);
      }
    }
    forall j | j in r.chunks && !r.chunks[j].inUse
      ensures Listed(r, r.chunks[j].size, j)
    {
      if j != k && j != k + h {
        assert Listed(a, a.chunks[j].size, j);
      }
    }
  }

  /** malloc's splitting loop: halve the free chunk at k, each time going
      on with the upper half, until a chunk of size `want` remains. The
      last piece is the top `want` bytes of the donor; every lower half
      left behind is a free chunk of its own size. */
  function Split(a: Allocator, k: int, want: int): (r: Allocator)
    requires Valid(a) && k in a.chunks && !a.chunks[k].inUse
    requires IsPow2(want) && want <= a.chunks[k].size
    ensures Valid(r) && r.size == a.size
    ensures SplitOutcome(a, k, want, r)
    decreases a.chunks[k].size
  {
    var d := a.chunks[k].size;
    if d > want then
      var h := d / 2;
      Pow2Below(want, d);
      HalveFits(a, k);
      ChunksAfter(a, k);
      var b := Halve(a, k, h);
      var r := Split(b, k + h, want);
      SplitStep(a.chunks, k, d, h, want, b.chunks, r.chunks);
      r
    else
      ChunksAfter(a, k);
      a
  }

  /** Splitting [k, k + d) down to `want` leaves its top `want` bytes as a
      free chunk. */
  ghost predicate SplitTop(k: int, d: int, want: int, m: map<int, Chunk>)
  {
    var top := k + d - want;
    top in m && m[top] == Chunk(false, top, want)
  }

  /** Every lower half cut off while splitting [k, k + d) down to `want`
      is a free chunk of its own size: for each power of two s with
      want <= s < d, the chunk of size s at k + d - 2 * s. */
  ghost predicate SplitLows(k: int, d: int, want: int, m: map<int, Chunk>)
  {
    forall s {:trigger LowHalf(k, d, s)} :: IsPow2(s) && want <= s < d ==>
      LowHalf(k, d, s) in m && m[LowHalf(k, d, s)] == Chunk(false, LowHalf(k, d, s), s)
  }

  /** Where splitting [k, k + d) leaves the lower half of size s. */
  function LowHalf(k: int, d: int, s: int): int
  {
    k + d - 2 * s
  }

  /** Splitting the chunk at k of size d keeps every other chunk and adds
      chunks only inside [k, k + d). */
  ghost predicate SplitFrame(m0: map<int, Chunk>, k: int, d: int, m: map<int, Chunk>)
  {
    && (forall j :: j in m0 && j != k ==> j in m && m[j] == m0[j])
    && (forall j :: j in m ==> j in m0 || k < j < k + d)
  }

  /** Every chunk inside [k, k + d) is free. */
  ghost predicate SplitFree(k: int, d: int, m: map<int, Chunk>)
  {
    forall j :: j in m && k <= j < k + d ==> !m[j].inUse
  }

  /** What malloc's splitting loop leaves behind when it splits the free
      chunk at k down to `want`. */
  ghost predicate SplitOutcome(a: Allocator, k: int, want: int, r: Allocator)
    requires k in a.chunks
  {
    var d := a.chunks[k].size;
    SplitTop(k, d, want, r.chunks) && SplitLows(k, d, want, r.chunks)
    && SplitFrame(a.chunks, k, d, r.chunks) && SplitFree(k, d, r.chunks)
  }

  /** No chunk of a valid allocator starts inside another. */
  lemma ChunksAfter(a: Allocator, k: int)
    requires Valid(a) && k in a.chunks
    ensures forall j :: j in a.chunks && k < j ==> k + a.chunks[k].size <= j
  {
    forall j | j in a.chunks && k < j
      ensures k + a.chunks[k].size <= j
    {
      assert Apart(a.chunks, k, j);
    }
  }

  /** One halving followed by the rest of the loop splits the whole chunk. */
  lemma SplitStep(m: map<int, Chunk>, k: int, d: int, h: int, want: int, mb: map<int, Chunk>, mr: map<int, Chunk>)
    requires k in m && m[k].size == d && IsPow2(d) && d == 2 * h && IsPow2(want) && want <= h
    requires k + h !in m && forall j :: j in m && k < j ==> k + d <= j
    requires mb == m[k := Chunk(false, k, h)][k + h := Chunk(false, k + h, h)]
    requires SplitTop(k + h, h, want, mr) && SplitLows(k + h, h, want, mr)
    requires SplitFrame(mb, k + h, h, mr) && SplitFree(k + h, h, mr)
    ensures SplitTop(k, d, want, mr) && SplitLows(k, d, want, mr)
    ensures SplitFrame(m, k, d, mr) && SplitFree(k, d, mr)
  {
    SplitStepFrame(m, k, d, h, mb, mr);
    SplitStepTop(k, d, h, want, mr);
    SplitStepLows(k, d, h, want, mr);
    SplitStepFree(m, k, d, h, mb, mr);
  }

  /** The top piece of one halving followed by the rest of the loop. */
  lemma SplitStepTop(k: int, d: int, h: int, want: int, mr: map<int, Chunk>)
    requires d == 2 * h
    requires SplitTop(k + h, h, want, mr)
    ensures SplitTop(k, d, want, mr)
  {
    assert k + h + h - want == k + d - want;
  }

  /** The lower halves of one halving followed by the rest of the loop. */
  lemma SplitStepLows(k: int, d: int, h: int, want: int, mr: map<int, Chunk>)
    requires IsPow2(d) && d == 2 * h && IsPow2(want) && want <= h
    requires k in mr && mr[k] == Chunk(false, k, h)
    requires SplitLows(k + h, h, want, mr)
    ensures SplitLows(k, d, want, mr)
  {
    forall s {:trigger LowHalf(k, d, s)} | IsPow2(s) && want <= s < d
      ensures LowHalf(k, d, s) in mr && mr[LowHalf(k, d, s)] == Chunk(false, LowHalf(k, d, s), s)
    {
      if s > h {
        Pow2Below(s, d);
      } else if s < h {
        assert LowHalf(k + h, h, s) == LowHalf(k, d, s);
      }
    }
  }

  /** The frame of one halving followed by the rest of the loop. */
  lemma SplitStepFrame(m: map<int, Chunk>, k: int, d: int, h: int, mb: map<int, Chunk>, mr: map<int, Chunk>)
    requires k in m && d == 2 * h && h >= 1 && k + h !in m
    requires mb == m[k := Chunk(false, k, h)][k + h := Chunk(false, k + h, h)]
    requires SplitFrame(mb, k + h, h, mr)
    ensures SplitFrame(m, k, d, mr)
    ensures k in mr && mr[k] == Chunk(false, k, h)
  {
    assert k in mb && k != k + h;
    forall j | j in m && j != k
      ensures j in mr && mr[j] == m[j]
    {
      assert j != k + h && j in mb && mb[j] == m[j];
    }
  }

  /** Freeness of one halving followed by the rest of the loop. */
  lemma SplitStepFree(m: map<int, Chunk>, k: int, d: int, h: int, mb: map<int, Chunk>, mr: map<int, Chunk>)
    requires k in m && d == 2 * h && h >= 1
    requires forall j :: j in m && k < j ==> k + d <= j
    requires mb == m[k := Chunk(false, k, h)][k + h := Chunk(false, k + h, h)]
    requires SplitFrame(mb, k + h, h, mr) && SplitFree(k + h, h, mr)
    requires k in mr && mr[k] == Chunk(false, k, h)
    ensures SplitFree(k, d, mr)
  {
    forall j | j in mr && k <= j < k + d
      ensures !mr[j].inUse
    {
    }
  }

  /** Allocator::malloc(request): round the request up to a power of two
      (next_largest_power_of_2, whose value is NextPow2 for every request
      up to MaxRequest: Rounding.SmearRounds),
      take the front chunk of the smallest free class that is large
      enough, split it down keeping the upper half, and mark the final
      piece in use. Throws (OutOfMemory) when no class is large enough. */
  function Malloc(a: Allocator, request: int): (r: MallocResult)
    requires Valid(a) && 1 <= request <= MaxRequest
    ensures r.OutOfMemory? <==> forall s :: s in a.freeLists ==> s < NextPow2(request)
    ensures r.OutOfMemory? ==> r.heap == a
    ensures r.Allocated? ==> DonorClass(a, NextPow2(request)).Some?
    ensures r.Allocated? ==> r == TakeFromClass(a, DonorClass(a, NextPow2(request)).value, NextPow2(request))
    ensures r.Allocated? ==> request <= NextPow2(request)
  {
    var want := NextPow2(request);
    match DonorClass(a, want)
    case None => OutOfMemory(a)
    case Some(cls) => TakeFromClass(a, cls, want)
  }

  /** The success path of malloc: the donor is the front chunk of class
      cls; the top `want` bytes of it end up in use and absent from every
      free list, every lower half cut off on the way is free and listed
      under its size, every other chunk is untouched, and the bytes in use
      grow by exactly `want`. */
  function TakeFromClass(a: Allocator, cls: int, want: int): (r: MallocResult)
    requires Valid(a) && cls in a.freeLists && IsPow2(want) && want <= cls
    ensures r.Allocated?
    ensures Valid(r.heap) && r.heap.size == a.size
    ensures var donor := a.freeLists[cls][0];
            && donor in a.chunks && a.chunks[donor].size == cls && !a.chunks[donor].inUse
            && r.offset == donor + cls - want
    ensures r.offset in r.heap.chunks && r.heap.chunks[r.offset] == Chunk(true, r.offset, want)
    ensures forall s :: !Listed(r.heap, s, r.offset)
    ensures var donor := a.freeLists[cls][0];
            forall s {:trigger LowHalf(donor, cls, s)} :: IsPow2(s) && want <= s < cls ==>
              var low := LowHalf(donor, cls, s);
              low in r.heap.chunks && r.heap.chunks[low] == Chunk(false, low, s) && Listed(r.heap, s, low)
    ensures var donor := a.freeLists[cls][0];
            forall j :: j in a.chunks && j != donor ==> j in r.heap.chunks && r.heap.chunks[j] == a.chunks[j]
    ensures TotalBytes(r.heap) == TotalBytes(a)
    ensures BytesInUse(r.heap) == BytesInUse(a) + want
    ensures BytesFree(r.heap) == BytesFree(a) - want
  {
    var donor := a.freeLists[cls][0];
    assert Listed(a, cls, donor);
    assert a.chunks[donor].size == cls;
    var b := Split(a, donor, want);
    var at := donor + cls - want;
    assert SplitTop(donor, cls, want, b.chunks) && SplitLows(donor, cls, want, b.chunks);
    ClassNoDup(b, at);
    var r := RemoveFromFreeList(b, at);
    MallocAccounting(a, b, donor, at);
    MallocLows(b, r, donor, cls, want, at);
    ChunksAfter(a, donor);
    MallocFrame(a.chunks, donor, cls, b.chunks, r.chunks, at);
    Allocated(r, at)
  }

  /** Taking the piece at `at` out of the split donor leaves every chunk
      outside the donor as it was. */
  lemma MallocFrame(m: map<int, Chunk>, donor: int, cls: int, mb: map<int, Chunk>, mr: map<int, Chunk>, at: int)
    requires donor in m && m[donor].size == cls && donor <= at < donor + cls
    requires forall j :: j in m && donor < j ==> donor + cls <= j
    requires SplitFrame(m, donor, cls, mb)
    requires at in mb && mr == mb[at := mb[at].(inUse := true)]
    ensures forall j :: j in m && j != donor ==> j in mr && mr[j] == m[j]
  {
  }

  /** The lower halves the splitting loop left behind sit on the free
      lists of their sizes. */
  lemma LowsListed(b: Allocator, donor: int, cls: int, want: int)
    requires Valid(b) && SplitLows(donor, cls, want, b.chunks)
    ensures forall s {:trigger LowHalf(donor, cls, s)} :: IsPow2(s) && want <= s < cls ==>
              Listed(b, s, LowHalf(donor, cls, s))
  {
    forall s {:trigger LowHalf(donor, cls, s)} | IsPow2(s) && want <= s < cls
      ensures Listed(b, s, LowHalf(donor, cls, s))
    {
      var low := LowHalf(donor, cls, s);
      assert low in b.chunks && b.chunks[low] == Chunk(false, low, s);
    }
  }

  /** The lower halves the splitting loop left behind stay free and
      listed once the top piece at `at` is taken. */
  lemma MallocLows(b: Allocator, r: Allocator, donor: int, cls: int, want: int, at: int)
    requires Valid(b) && IsPow2(want) && SplitLows(donor, cls, want, b.chunks)
    requires at == donor + cls - want && at in b.chunks
    requires r.chunks == b.chunks[at := b.chunks[at].(inUse := true)]
    requires forall s, j {:trigger Listed(r, s, j)} ::
               Listed(r, s, j) <==> Listed(b, s, j) && !(s == b.chunks[at].size && j == at)
    ensures forall s {:trigger LowHalf(donor, cls, s)} :: IsPow2(s) && want <= s < cls ==>
              var low := LowHalf(donor, cls, s);
              low in r.chunks && r.chunks[low] == Chunk(false, low, s) && Listed(r, s, low)
  {
    LowsListed(b, donor, cls, want);
    forall s {:trigger LowHalf(donor, cls, s)} | IsPow2(s) && want <= s < cls
      ensures var low := LowHalf(donor, cls, s);
              low in r.chunks && r.chunks[low] == Chunk(false, low, s) && Listed(r, s, low)
    {
      var low := LowHalf(donor, cls, s);
      assert low != at && Listed(b, s, low);
    }
  }

  /** The byte counters across malloc: splitting touches only free chunks,
      and the final piece moves from free to in use. */
  lemma MallocAccounting(a: Allocator, b: Allocator, donor: int, at: int)
    requires Valid(a) && Valid(b) && b.size == a.size && donor in a.chunks
    requires forall j :: j in a.chunks && j != donor ==> j in b.chunks && b.chunks[j] == a.chunks[j]
    requires forall j :: j in b.chunks ==> j in a.chunks || donor < j < donor + a.chunks[donor].size
    requires forall j :: j in b.chunks && donor <= j < donor + a.chunks[donor].size ==> !b.chunks[j].inUse
    requires !a.chunks[donor].inUse && at in b.chunks && !b.chunks[at].inUse
    ensures Valid(RemoveFromFreeList(b, at))
    ensures TotalBytes(RemoveFromFreeList(b, at)) == TotalBytes(a)
    ensures BytesInUse(RemoveFromFreeList(b, at)) == BytesInUse(a) + b.chunks[at].size
    ensures BytesFree(RemoveFromFreeList(b, at)) == BytesFree(a) - b.chunks[at].size
    ensures forall s :: !Listed(RemoveFromFreeList(b, at), s, at)
  {
    assert SameInUse(a, b);
    SameInUseBytes(a, b);
    TakeChunk(b, at);
    var r := RemoveFromFreeList(b, at);
    InUsePlusFree(a);
    InUsePlusFree(r);
  }
}

=== FILE: byte_counts.dfy ===
/** The allocator's diagnostic counters: total_bytes, total_bytes_in_use,
    total_bytes_free and num_chunks. The source's counters walk every
    tracked chunk; the model adds up the chunks at offsets in [0, size).
    The two agree on every valid allocator, where every chunk lies inside
    the arena, and only there. */
module ByteCounts {
  import opened Bits
  import opened HeapState

  /** total_bytes(): the sizes of all chunks, which on a valid allocator
      add up to the whole arena. */
  function TotalBytes(a: Allocator): (t: int)
    ensures Valid(a) ==> t == a.size
  {
    SumSizes(a.chunks, 0, a.size, AllChunks)
  }

  /** total_bytes_in_use(): on a valid allocator, between none and all of
      the arena. */
  function BytesInUse(a: Allocator): (u: int)
    ensures Valid(a) ==> 0 <= u <= a.size
  {
    CountsWithin(a);
    SumSizes(a.chunks, 0, a.size, InUseOnly)
  }

  /** total_bytes_free(): on a valid allocator, between none and all of
      the arena. */
  function BytesFree(a: Allocator): (f: int)
    ensures Valid(a) ==> 0 <= f <= a.size
  {
    CountsWithin(a);
    SumSizes(a.chunks, 0, a.size, FreeOnly)
  }

  /** num_chunks(): a valid allocator tracks at least one chunk (the one
      holding byte 0) and at most one per byte of the arena. */
  function NumChunks(a: Allocator): (n: int)
    ensures Valid(a) ==> 1 <= n <= a.size
  {
    ChunksWithin(a);
    |a.chunks|
  }

  /** On a valid allocator both partial counters are non-negative and sum
      to the arena size. */
  lemma CountsWithin(a: Allocator)
    ensures Valid(a) ==> 0 <= SumSizes(a.chunks, 0, a.size, InUseOnly) <= a.size
    ensures Valid(a) ==> 0 <= SumSizes(a.chunks, 0, a.size, FreeOnly) <= a.size
  {
    if Valid(a) {
      SumSplits(a.chunks, 0, a.size);
      SumNonNegative(a.chunks, 0, a.size, InUseOnly);
      SumNonNegative(a.chunks, 0, a.size, FreeOnly);
    }
  }

  /** Sums of non-negative chunk sizes are non-negative. */
  lemma {:induction false} SumNonNegative(m: map<int, Chunk>, lo: int, hi: int, t: Tally)
    requires forall k :: k in m ==> m[k].size >= 0
    ensures SumSizes(m, lo, hi, t) >= 0
    decreases hi - lo
  {
    if lo < hi {
      SumNonNegative(m, lo + 1, hi, t);
    }
  }

  /** The chunk count of a valid allocator lies in [1, size]. */
  lemma ChunksWithin(a: Allocator)
    ensures Valid(a) ==> 1 <= |a.chunks| <= a.size
  {
    if Valid(a) {
      ByteCovered(a, 0);
      var k :| k in a.chunks && k <= 0 < k + a.chunks[k].size;
      assert k in a.chunks.Keys;
      KeysWithin(a.chunks.Keys, 0, a.size);
    }
  }

  /** A set of offsets inside [lo, hi) has at most hi - lo members. */
  lemma {:induction false} KeysWithin(keys: set<int>, lo: int, hi: int)
    requires lo <= hi && forall k :: k in keys ==> lo <= k < hi
    ensures |keys| <= hi - lo
    decreases hi - lo
  {
    if lo < hi {
      KeysWithin(keys - {lo}, lo + 1, hi);
    } else {
      assert keys == {};
    }
  }

  /** a and b track the same in-use chunks. */
  ghost predicate SameInUse(a: Allocator, b: Allocator)
  {
    && (forall j :: j in a.chunks && a.chunks[j].inUse ==> j in b.chunks && b.chunks[j] == a.chunks[j])
    && (forall j :: j in b.chunks && b.chunks[j].inUse ==> j in a.chunks && a.chunks[j] == b.chunks[j])
  }

  /** Steps that only touch free chunks leave total_bytes_in_use() alone. */
  lemma SameInUseBytes(a: Allocator, b: Allocator)
    requires SameInUse(a, b) && a.size == b.size
    ensures BytesInUse(a) == BytesInUse(b)
  {
    assert forall j :: Contribution(a.chunks, j, InUseOnly) == Contribution(b.chunks, j, InUseOnly);
    SumSame(a.chunks, b.chunks, 0, a.size, InUseOnly);
  }

  /** Bytes in use and bytes free add up to the total, for any chunk map. */
  lemma {:induction false} SumSplits(m: map<int, Chunk>, lo: int, hi: int)
    ensures SumSizes(m, lo, hi, InUseOnly) + SumSizes(m, lo, hi, FreeOnly) == SumSizes(m, lo, hi, AllChunks)
    decreases hi - lo
  {
    if lo < hi {
      SumSplits(m, lo + 1, hi);
    }
  }

  /** total_bytes_in_use() + total_bytes_free() == total_bytes(). */
  lemma InUsePlusFree(a: Allocator)
    ensures BytesInUse(a) + BytesFree(a) == TotalBytes(a)
  {
    SumSplits(a.chunks, 0, a.size);
  }

  /** Every byte of a valid arena lies in exactly one tracked chunk. */
  lemma ByteCovered(a: Allocator, p: int)
    requires Valid(a) && 0 <= p < a.size
    ensures exists k :: k in a.chunks && k <= p < k + a.chunks[k].size
    ensures forall k1, k2 ::
              (k1 in a.chunks && k2 in a.chunks && k1 <= p < k1 + a.chunks[k1].size
               && k2 <= p < k2 + a.chunks[k2].size) ==> k1 == k2
  {
    var m := a.chunks;
    if !exists k :: k in m && k <= p < k + m[k].size {
      // With p uncovered, the chunks left of p end by p and those right of
      // it miss p itself, so the sizes add up to less than the arena.
      SumBounded(m, 0, p);
      SumBounded(m, p + 1, a.size);
      SumAppend(m, 0, p, a.size, AllChunks);
      assert false;
    }
    forall k1, k2 | k1 in m && k2 in m && k1 <= p < k1 + m[k1].size && k2 <= p < k2 + m[k2].size
      ensures k1 == k2
    {
      assert Apart(m, k1, k2) && Apart(m, k2, k1);
    }
  }
}

=== FILE: chunking.dfy ===
/** The vector all-reduce front end: the array is cut into chunks of at
    most maxn = 2048 / sizeof(T) elements, each chunk goes through one
    array round at the home node, and the wake-up copies the chunk's
    reduced values to the caller's result pointer. */
module Chunking {
  import opened Wrappers
  import opened Folds
  import opened ArrayReduction

  /** Payload bytes one reduction message may carry. */
  const MessageBytes: nat := 2048

  /** maxn = 2048 / sizeof(T): at least one element exactly when an
      element fits in a message. */
  function MaxPerMessage(elemSize: nat): (maxn: nat)
    requires elemSize >= 1
    ensures maxn >= 1 <==> elemSize <= MessageBytes
  {
    MessageBytes / elemSize
  }

  /** For an element type wider than a message, maxn is 0: the chunk
      handed on at i is empty and i + maxn is i again, so the loop of
      Grappa_allreduce repeats the same empty round forever once
      nelem > 0. ChunkPlan requires sizeof(T) <= 2048. */
  lemma OversizeLoopStalls(nelem: nat, elemSize: nat, i: nat)
    requires elemSize > MessageBytes && i < nelem
    ensures MaxPerMessage(elemSize) == 0
    ensures Chunk(nelem, MaxPerMessage(elemSize), i) == Span(i, 0)
    ensures i + MaxPerMessage(elemSize) == i
  {
  }

  /** The elements [start, start + len) of the array. */
  datatype Span = Span(start: nat, len: nat)

  function Min(a: nat, b: nat): nat
  {
    if a < b then a else b
  }

  /** The chunk the loop hands on at i = from: MIN(maxn, nelem - i)
      elements from i. */
  function Chunk(nelem: nat, maxn: nat, from: nat): (s: Span)
    requires from < nelem
    ensures s.start == from && s.start + s.len <= nelem
    ensures maxn >= 1 ==> 1 <= s.len <= maxn
  {
    Span(from, Min(maxn, nelem - from))
  }

  /** The chunks visited from element `from` on: one of MIN(maxn, nelem - i)
      elements at each i = from, from + maxn, ... below nelem. */
  function Plan(nelem: nat, maxn: nat, from: nat): (p: seq<Span>)
    requires maxn >= 1
    ensures forall k :: 0 <= k < |p| ==>
              from <= p[k].start && 1 <= p[k].len <= maxn && p[k].start + p[k].len <= nelem
    decreases nelem - from
  {
    if from >= nelem then []
    else [Chunk(nelem, maxn, from)] + Plan(nelem, maxn, from + maxn)
  }

  /** The loop of Grappa_allreduce(array, nelem, result): the chunks it
      hands to allreduce_one_message, in order. */
  method ChunkPlan(nelem: nat, elemSize: nat) returns (spans: seq<Span>)
    requires 1 <= elemSize <= MessageBytes
    ensures spans == Plan(nelem, MaxPerMessage(elemSize), 0)
  {
    var maxn := MaxPerMessage(elemSize);
    spans := [];
    var i := 0;
    while i < nelem
      invariant spans + Plan(nelem, maxn, i) == Plan(nelem, maxn, 0)
      decreases nelem - i
    {
      spans := spans + [Chunk(nelem, maxn, i)];
      i := i + maxn;
    }
  }

  /** The chunks from `from` start at from, from + maxn, from + 2 maxn,
      ...; each holds between 1 and maxn elements (so it passes
      allreduce_one_message's nelem <= maxn check), ends by nelem, and
      comes wholly after the chunks before it. */
  lemma {:induction false} PlanShape(nelem: nat, maxn: nat, from: nat)
    requires maxn >= 1
    ensures forall k :: 0 <= k < |Plan(nelem, maxn, from)| ==>
              Plan(nelem, maxn, from)[k].start == from + k * maxn
    ensures forall k1, k2 :: 0 <= k1 < k2 < |Plan(nelem, maxn, from)| ==>
              Plan(nelem, maxn, from)[k1].start + Plan(nelem, maxn, from)[k1].len <= Plan(nelem, maxn, from)[k2].start
    decreases nelem - from
  {
    if from < nelem {
      var p := Plan(nelem, maxn, from);
      var rest := Plan(nelem, maxn, from + maxn);
      PlanShape(nelem, maxn, from + maxn);
      forall k | 1 <= k < |p|
        ensures p[k].start == from + k * maxn
      {
        assert p[k] == rest[k - 1];
        assert rest[k - 1].start == from + maxn + (k - 1) * maxn;
        assert (k - 1) * maxn + maxn == k * maxn;
      }
    }
  }

  /** The chunk holds element j. */
  predicate Holds(s: Span, j: nat)
  {
    s.start <= j < s.start + s.len
  }

  /** Every element below nelem, from `from` on, lies in exactly one
      chunk. */
  lemma {:induction false} PlanCoversOnce(nelem: nat, maxn: nat, from: nat, j: nat)
    requires maxn >= 1 && from <= j < nelem
    ensures exists k :: 0 <= k < |Plan(nelem, maxn, from)| && Holds(Plan(nelem, maxn, from)[k], j)
    ensures forall k1, k2 ::
              (0 <= k1 < |Plan(nelem, maxn, from)| && 0 <= k2 < |Plan(nelem, maxn, from)|
               && Holds(Plan(nelem, maxn, from)[k1], j) && Holds(Plan(nelem, maxn, from)[k2], j)) ==> k1 == k2
    decreases nelem - from
  {
    var p := Plan(nelem, maxn, from);
    PlanShape(nelem, maxn, from);
    if j >= from + maxn {
      PlanCoversOnce(nelem, maxn, from + maxn, j);
      var rest := Plan(nelem, maxn, from + maxn);
      var k :| 0 <= k < |rest| && Holds(rest[k], j);
      assert p == [p[0]] + rest;
      assert p[k + 1] == rest[k];
      assert Holds(p[k + 1], j);
    } else {
      assert Holds(p[0], j);
    }
  }


  /** The caller's memory: its own array (`local`) and the optional result
      buffer (NULL is None). */
  datatype Buffers<T> = Buffers(local: seq<T>, result: Option<seq<T>>)

  /** memcpy of vals into buf at offset `at`. */
  function WriteAt<T>(buf: seq<T>, at: nat, vals: seq<T>): (r: seq<T>)
    requires at + |vals| <= |buf|
    ensures |r| == |buf|
    ensures forall q :: 0 <= q < |buf| ==> r[q] == if at <= q < at + |vals| then vals[q - at] else buf[q]
  {
    buf[..at] + vals + buf[at + |vals|..]
  }

  /** What each node sends for a chunk: its array + start, len elements. */
  function Slices<T>(vals: seq<seq<T>>, s: Span): (c: seq<seq<T>>)
    requires Rows(vals, s.start + s.len)
    ensures |c| == |vals| && Rows(c, s.len)
    ensures forall j :: 0 <= j < |vals| ==> c[j] == vals[j][s.start..s.start + s.len]
  {
    seq(|vals|, j requires 0 <= j < |vals| && s.start + s.len <= |vals[j]| => vals[j][s.start..s.start + s.len])
  }

  /** The values one chunk's array round wakes every node with
      (ArrayReduction.ArrayRoundComplete). */
  function ChunkResult<T>(f: (T, T) -> T, base: T, vals: seq<seq<T>>, s: Span): (r: seq<T>)
    requires Rows(vals, s.start + s.len)
    ensures |r| == s.len
  {
    ColumnFolds(f, base, Slices(vals, s), s.len)
  }

  /** A chunk's round reduces exactly its part of the whole vector. */
  lemma ChunkResultIsSlice<T>(f: (T, T) -> T, base: T, vals: seq<seq<T>>, s: Span, nelem: nat)
    requires Rows(vals, nelem) && s.start + s.len <= nelem
    ensures ChunkResult(f, base, vals, s) == ColumnFolds(f, base, vals, nelem)[s.start..s.start + s.len]
  {
    forall q | 0 <= q < s.len
      ensures ChunkResult(f, base, vals, s)[q] == ColumnFolds(f, base, vals, nelem)[s.start + q]
    {
      assert Column(Slices(vals, s), q) == Column(vals, s.start + q);
    }
  }

  /** Where the wake-up of a chunk writes, as an offset into the buffer it
      writes into: array + start when result is NULL; otherwise result
      itself as written (`shifted` false), or result + start (`shifted`
      true). */
  function Destination(hasResult: bool, s: Span, shifted: bool): nat
  {
    if hasResult && !shifted then 0 else s.start
  }

  /** The sizes of the caller's buffers, which no wake-up changes. */
  datatype Room = Room(local: nat, result: Option<nat>)

  function RoomOf<T>(b: Buffers<T>): Room
  {
    Room(|b.local|, match b.result case None => None case Some(buf) => Some(|buf|))
  }

  /** A chunk fits the caller's buffers and the message: the array holds
      it, the destination has room, and it passes the nelem <= maxn
      check. */
  ghost predicate Fits(room: Room, s: Span, elemSize: nat, shifted: bool)
    requires 1 <= elemSize <= MessageBytes
  {
    && s.len <= MaxPerMessage(elemSize)
    && s.start + s.len <= room.local
    && (room.result.Some? ==> Destination(true, s, shifted) + s.len <= room.result.value)
  }

  /** The buffer a wake-up writes into: result, or the array itself. */
  function Target<T>(b: Buffers<T>): seq<T>
  {
    match b.result
    case None => b.local
    case Some(buf) => buf
  }

  /** allreduce_one_message(array + s.start, s.len, result) once its array
      round is complete: the wake-up copies the broadcast values to the
      destination. */
  function OneMessage<T>(b: Buffers<T>, s: Span, elemSize: nat, payload: seq<T>, shifted: bool): (r: Buffers<T>)
    requires 1 <= elemSize <= MessageBytes && Fits(RoomOf(b), s, elemSize, shifted) && |payload| == s.len
    ensures RoomOf(r) == RoomOf(b) && (b.result.Some? ==> r.local == b.local)
  {
    var at := Destination(b.result.Some?, s, shifted);
    match b.result
    case None => b.(local := WriteAt(b.local, at, payload))
    case Some(buf) => b.(result := Some(WriteAt(buf, at, payload)))
  }

  /** The wake-up writes the broadcast values at the destination and leaves
      every other element of the target as it was. */
  lemma OneMessageWrites<T>(b: Buffers<T>, s: Span, elemSize: nat, payload: seq<T>, shifted: bool)
    requires 1 <= elemSize <= MessageBytes && Fits(RoomOf(b), s, elemSize, shifted) && |payload| == s.len
    ensures var at := Destination(b.result.Some?, s, shifted);
            var r := OneMessage(b, s, elemSize, payload, shifted);
            && |Target(r)| == |Target(b)|
            && forall q :: 0 <= q < |Target(b)| ==>
                 Target(r)[q] == if at <= q < at + s.len then payload[q - at] else Target(b)[q]
  {
    var at := Destination(b.result.Some?, s, shifted);
    var r := OneMessage(b, s, elemSize, payload, shifted);
    assert Target(r) == WriteAt(Target(b), at, payload);
  }

  /** What Grappa_allreduce may demand of the caller's buffers: the array
      holds nelem elements, and a result buffer has room for nelem. */
  ghost predicate CallOk(room: Room, nelem: nat)
  {
    nelem <= room.local && (room.result.Some? ==> nelem <= room.result.value)
  }

  /** Each chunk of a call that is fine fits. */
  lemma ChunkFits(room: Room, nelem: nat, elemSize: nat, shifted: bool, from: nat)
    requires 1 <= elemSize <= MessageBytes && CallOk(room, nelem) && from < nelem
    ensures Fits(room, Chunk(nelem, MaxPerMessage(elemSize), from), elemSize, shifted)
  {
  }

  /** The loop of Grappa_allreduce from i = from on: the chunk at i goes
      through allreduce_one_message, whose round broadcasts that chunk's
      part of the reduced vector (ChunkResultIsSlice); then i advances by
      maxn. */
  function DeliverFrom<T>(b: Buffers<T>, nelem: nat, elemSize: nat, reduced: seq<T>,
                          shifted: bool, from: nat): (r: Buffers<T>)
    requires 1 <= elemSize <= MessageBytes && CallOk(RoomOf(b), nelem) && |reduced| == nelem
    ensures RoomOf(r) == RoomOf(b) && (b.result.Some? ==> r.local == b.local)
    decreases nelem - from
  {
    if from >= nelem then b
    else
      var maxn := MaxPerMessage(elemSize);
      var s := Chunk(nelem, maxn, from);
      ChunkFits(RoomOf(b), nelem, elemSize, shifted, from);
      var b1 := OneMessage(b, s, elemSize, reduced[s.start..s.start + s.len], shifted);
      DeliverFrom(b1, nelem, elemSize, reduced, shifted, from + maxn)
  }

  /** One turn of the loop: the chunk at i goes out, then the rest. */
  lemma DeliverFromStep<T>(b: Buffers<T>, nelem: nat, elemSize: nat, reduced: seq<T>, shifted: bool, from: nat)
    requires 1 <= elemSize <= MessageBytes && CallOk(RoomOf(b), nelem) && |reduced| == nelem && from < nelem
    ensures var s := Chunk(nelem, MaxPerMessage(elemSize), from);
            var b1 := OneMessage(b, s, elemSize, reduced[s.start..s.start + s.len], shifted);
            DeliverFrom(b, nelem, elemSize, reduced, shifted, from)
            == DeliverFrom(b1, nelem, elemSize, reduced, shifted, from + MaxPerMessage(elemSize))
  {
    ChunkFits(RoomOf(b), nelem, elemSize, shifted, from);
  }

  /** r is what the loop from i = from on leaves in the buffers. */
  ghost predicate Delivers<T>(b: Buffers<T>, nelem: nat, elemSize: nat, reduced: seq<T>,
                              shifted: bool, from: nat, r: Buffers<T>)
    requires 1 <= elemSize <= MessageBytes && CallOk(RoomOf(b), nelem) && |reduced| == nelem
  {
    r == DeliverFrom(b, nelem, elemSize, reduced, shifted, from)
  }

  /** The outcome of the loop from i is the outcome of the loop from
      i + maxn on the buffers after the chunk at i. */
  lemma DeliversNext<T>(b: Buffers<T>, nelem: nat, elemSize: nat, reduced: seq<T>,
                        shifted: bool, from: nat, r: Buffers<T>)
    requires 1 <= elemSize <= MessageBytes && CallOk(RoomOf(b), nelem) && |reduced| == nelem && from < nelem
    requires Delivers(b, nelem, elemSize, reduced, shifted, from, r)
    ensures var s := Chunk(nelem, MaxPerMessage(elemSize), from);
            var b1 := OneMessage(b, s, elemSize, reduced[s.start..s.start + s.len], shifted);
            Delivers(b1, nelem, elemSize, reduced, shifted, from + MaxPerMessage(elemSize), r)
  {
    DeliverFromStep(b, nelem, elemSize, reduced, shifted, from);
  }

  /** Grappa_allreduce(array, nelem, result) as written: every chunk's
      values are copied to the same result base. */
  function AllreduceAsWritten<T>(b: Buffers<T>, nelem: nat, elemSize: nat, vals: seq<seq<T>>,
                                 f: (T, T) -> T, base: T): (r: Buffers<T>)
    requires 1 <= elemSize <= MessageBytes && Rows(vals, nelem) && CallOk(RoomOf(b), nelem)
    ensures RoomOf(r) == RoomOf(b) && (b.result.Some? ==> r.local == b.local)
  {
    DeliverFrom(b, nelem, elemSize, ColumnFolds(f, base, vals, nelem), false, 0)
  }

  /** Grappa_allreduce(array, nelem, result) with each chunk's values
      copied to result + i, where the vector reduction promises them. */
  function Allreduce<T>(b: Buffers<T>, nelem: nat, elemSize: nat, vals: seq<seq<T>>,
                        f: (T, T) -> T, base: T): (r: Buffers<T>)
    requires 1 <= elemSize <= MessageBytes && Rows(vals, nelem) && CallOk(RoomOf(b), nelem)
    ensures RoomOf(r) == RoomOf(b) && (b.result.Some? ==> r.local == b.local)
  {
    DeliverFrom(b, nelem, elemSize, ColumnFolds(f, base, vals, nelem), true, 0)
  }

  /** `before` with the values cf written at positions lo..hi-1. */
  function Overlay<T>(before: seq<T>, lo: nat, hi: nat, cf: seq<T>): (r: seq<T>)
    ensures |r| == |before|
    ensures forall q :: 0 <= q < |before| ==> r[q] == if lo <= q < hi && q < |cf| then cf[q] else before[q]
  {
    seq(|before|, q requires 0 <= q < |before| => if lo <= q < hi && q < |cf| then cf[q] else before[q])
  }

  /** Writing lo..mid-1 and then mid..hi-1 writes lo..hi-1. */
  lemma OverlayCompose<T>(a: seq<T>, lo: nat, mid: nat, hi: nat, cf: seq<T>)
    requires lo <= mid <= hi
    ensures Overlay(Overlay(a, lo, mid, cf), mid, hi, cf) == Overlay(a, lo, hi, cf)
  {
  }

  /** Writing an empty range changes nothing. */
  lemma OverlayNothing<T>(a: seq<T>, lo: nat, hi: nat, cf: seq<T>)
    requires hi <= lo
    ensures Overlay(a, lo, hi, cf) == a
  {
  }

  /** The chunk at i writes from i up to mid, which is i + maxn or, for the
      last chunk, nelem; the rest of the loop writes from i + maxn on. */
  lemma StepCombines<T>(t: seq<T>, t1: seq<T>, tr: seq<T>, from: nat, mid: nat, maxn: nat, nelem: nat, cf: seq<T>)
    requires from <= mid <= nelem && (mid == from + maxn || (mid == nelem && nelem <= from + maxn))
    requires t1 == Overlay(t, from, mid, cf) && tr == Overlay(t1, from + maxn, nelem, cf)
    ensures tr == Overlay(t, from, nelem, cf)
  {
    if mid == from + maxn {
      OverlayCompose(t, from, mid, nelem, cf);
    } else {
      OverlayNothing(t1, from + maxn, nelem, cf);
    }
  }

  /** One chunk's wake-up, copying to result + start (or array + start),
      puts the reduced values at the chunk's positions. */
  lemma ChunkLands<T>(b: Buffers<T>, s: Span, elemSize: nat, reduced: seq<T>)
    requires 1 <= elemSize <= MessageBytes && Fits(RoomOf(b), s, elemSize, true)
    requires s.start + s.len <= |reduced|
    ensures Target(OneMessage(b, s, elemSize, reduced[s.start..s.start + s.len], true))
            == Overlay(Target(b), s.start, s.start + s.len, reduced)
  {
    OneMessageWrites(b, s, elemSize, reduced[s.start..s.start + s.len], true);
  }

  /** The loop from i = from on writes the reduced vector at positions
      from..nelem-1 of the target and nothing else. */
  lemma {:induction false} DeliverFromWrites<T>(b: Buffers<T>, nelem: nat, elemSize: nat, reduced: seq<T>,
                                                from: nat, r: Buffers<T>)
    requires 1 <= elemSize <= MessageBytes && CallOk(RoomOf(b), nelem) && |reduced| == nelem
    requires Delivers(b, nelem, elemSize, reduced, true, from, r)
    ensures Target(r) == Overlay(Target(b), from, nelem, reduced)
    decreases nelem - from
  {
    if from < nelem {
      var maxn := MaxPerMessage(elemSize);
      var s := Chunk(nelem, maxn, from);
      ChunkFits(RoomOf(b), nelem, elemSize, true, from);
      var b1 := OneMessage(b, s, elemSize, reduced[s.start..s.start + s.len], true);
      DeliversNext(b, nelem, elemSize, reduced, true, from, r);
      ChunkLands(b, s, elemSize, reduced);
      DeliverFromWrites(b1, nelem, elemSize, reduced, from + maxn, r);
      StepCombines(Target(b), Target(b1), Target(r), from, s.start + s.len, maxn, nelem, reduced);
    } else {
      assert r == b;
      OverlayNothing(Target(b), from, nelem, reduced);
    }
  }

  /** The vector all-reduce leaves result[i] (array[i] when result is
      NULL) equal to BaseVal folded with every node's array[i], for every
      i < nelem, and changes nothing else. */
  lemma AllreduceDelivers<T>(b: Buffers<T>, nelem: nat, elemSize: nat, vals: seq<seq<T>>,
                             f: (T, T) -> T, base: T)
    requires 1 <= elemSize <= MessageBytes && Rows(vals, nelem) && CallOk(RoomOf(b), nelem)
    ensures var r := Allreduce(b, nelem, elemSize, vals, f, base);
            && Target(r)[..nelem] == ColumnFolds(f, base, vals, nelem)
            && Target(r)[nelem..] == Target(b)[nelem..]
  {
    var r := Allreduce(b, nelem, elemSize, vals, f, base);
    var cf := ColumnFolds(f, base, vals, nelem);
    assert Delivers(b, nelem, elemSize, cf, true, 0, r);
    DeliverFromWrites(b, nelem, elemSize, cf, 0, r);
    var t := Target(r);
    assert forall q :: 0 <= q < nelem ==> t[..nelem][q] == cf[q];
    assert forall q :: 0 <= q < |t| - nelem ==> t[nelem..][q] == Target(b)[nelem..][q];
  }

  /** Without a result buffer every chunk lands at array + i either way. */
  lemma {:induction false} InPlaceIgnoresShift<T>(b: Buffers<T>, nelem: nat, elemSize: nat, reduced: seq<T>, from: nat)
    requires 1 <= elemSize <= MessageBytes && CallOk(RoomOf(b), nelem) && |reduced| == nelem && b.result.None?
    ensures DeliverFrom(b, nelem, elemSize, reduced, false, from) == DeliverFrom(b, nelem, elemSize, reduced, true, from)
    decreases nelem - from
  {
    if from < nelem {
      var maxn := MaxPerMessage(elemSize);
      var s := Chunk(nelem, maxn, from);
      ChunkFits(RoomOf(b), nelem, elemSize, true, from);
      ChunkFits(RoomOf(b), nelem, elemSize, false, from);
      var payload := reduced[s.start..s.start + s.len];
      var b1 := OneMessage(b, s, elemSize, payload, true);
      assert b1 == OneMessage(b, s, elemSize, payload, false);
      DeliverFromStep(b, nelem, elemSize, reduced, true, from);
      DeliverFromStep(b, nelem, elemSize, reduced, false, from);
      InPlaceIgnoresShift(b1, nelem, elemSize, reduced, from + maxn);
    }
  }

  /** Called without a result buffer, the code as written does what the
      vector reduction promises. */
  lemma AsWrittenInPlace<T>(b: Buffers<T>, nelem: nat, elemSize: nat, vals: seq<seq<T>>,
                            f: (T, T) -> T, base: T)
    requires 1 <= elemSize <= MessageBytes && Rows(vals, nelem) && CallOk(RoomOf(b), nelem) && b.result.None?
    ensures AllreduceAsWritten(b, nelem, elemSize, vals, f, base) == Allreduce(b, nelem, elemSize, vals, f, base)
  {
    InPlaceIgnoresShift(b, nelem, elemSize, ColumnFolds(f, base, vals, nelem), 0);
  }

  /** With 2048-byte elements every chunk holds one element. */
  lemma OneElementChunks()
    ensures Plan(2, MaxPerMessage(2048), 0) == [Span(0, 1), Span(1, 1)]
  {
    assert Plan(2, 1, 2) == [];
    assert Plan(2, 1, 1) == [Span(1, 1)] + Plan(2, 1, 2);
  }

  /** A single node adding [5, 7] from 0: the one-element rounds broadcast
      [5] and [7], and the whole vector reduces to [5, 7]. */
  lemma OneElementRounds(vals: seq<seq<int>>)
    requires vals == [[5, 7]]
    ensures ChunkResult(Add, 0, vals, Span(0, 1)) == [5]
    ensures ChunkResult(Add, 0, vals, Span(1, 1)) == [7]
    ensures ColumnFolds(Add, 0, vals, 2) == [5, 7]
  {
    assert Column(Slices(vals, Span(0, 1)), 0) == [5];
    assert Column(Slices(vals, Span(1, 1)), 0) == [7];
    assert Column(vals, 0) == [5] && Column(vals, 1) == [7];
    assert FoldLeft(Add, 0, [5]) == Add(FoldLeft(Add, 0, []), 5);
    assert FoldLeft(Add, 0, [7]) == Add(FoldLeft(Add, 0, []), 7);
  }

  /** One node adding up two 2048-byte elements into a separate result
      buffer: as written, both one-element chunks are copied to result[0],
      so result ends as [7, 0] instead of [5, 7]. */
  lemma AsWrittenOverwritesChunks(b: Buffers<int>, vals: seq<seq<int>>)
    requires b == Buffers([5, 7], Some([0, 0])) && vals == [[5, 7]]
    ensures AllreduceAsWritten(b, 2, 2048, vals, Add, 0).result == Some([7, 0])
  {
    var s0, s1 := Span(0, 1), Span(1, 1);
    assert MaxPerMessage(2048) == 1;
    assert Chunk(2, 1, 0) == s0 && Chunk(2, 1, 1) == s1;
    OneElementRounds(vals);
    var cf := ColumnFolds(Add, 0, vals, 2);
    assert cf[0..1] == [5] && cf[1..2] == [7];
    var w0 := OneMessage(b, s0, 2048, [5], false);
    var w1 := OneMessage(w0, s1, 2048, [7], false);
    var t1 := w1.result.value;
    assert t1[0] == 7 && t1[1] == 0;
    assert t1 == [7, 0];
    DeliverFromStep(b, 2, 2048, cf, false, 0);
    DeliverFromStep(w0, 2, 2048, cf, false, 1);
  }

  /** On the same call, copying each chunk to result + i leaves result as
      [5, 7]. */
  lemma ShiftedKeepsChunks(b: Buffers<int>, vals: seq<seq<int>>)
    requires b == Buffers([5, 7], Some([0, 0])) && vals == [[5, 7]]
    ensures Allreduce(b, 2, 2048, vals, Add, 0).result == Some([5, 7])
  {
    AllreduceDelivers(b, 2, 2048, vals, Add, 0);
    OneElementRounds(vals);
    var r := Allreduce(b, 2, 2048, vals, Add, 0);
    assert RoomOf(r) == RoomOf(b);
    assert Target(r) == Target(r)[..2];
  }
}

=== FILE: folds.dfy ===
/** Left folds of a reduce function over a sequence of contributions, and
    why the arrival order does not matter when the function is
    commutative and associative. */
module Folds {

  /** Reducer(...Reducer(Reducer(init, vs[0]), vs[1])..., vs[|vs| - 1]). */
  function FoldLeft<T>(f: (T, T) -> T, init: T, vs: seq<T>): T
    decreases |vs|
  {
    if vs == [] then init
    else f(FoldLeft(f, init, vs[..|vs| - 1]), vs[|vs| - 1])
  }

  ghost predicate Commutative<T(!new)>(f: (T, T) -> T)
  {
    forall x, y :: f(x, y) == f(y, x)
  }

  ghost predicate Associative<T(!new)>(f: (T, T) -> T)
  {
    forall x, y, z :: f(f(x, y), z) == f(x, f(y, z))
  }

  /** One more contribution folds onto the result so far. */
  lemma FoldSnoc<T>(f: (T, T) -> T, init: T, vs: seq<T>, v: T)
    ensures FoldLeft(f, init, vs + [v]) == f(FoldLeft(f, init, vs), v)
  {
    assert (vs + [v])[..|vs|] == vs;
  }

  /** With a commutative, associative reducer any one contribution can be
      folded in last. */
  lemma {:induction false} FoldWithout<T(!new)>(f: (T, T) -> T, init: T, ws: seq<T>, i: int)
    requires Commutative(f) && Associative(f) && 0 <= i < |ws|
    ensures FoldLeft(f, init, ws) == f(FoldLeft(f, init, ws[..i] + ws[i + 1..]), ws[i])
    decreases |ws|
  {
    var n := |ws|;
    if i == n - 1 {
      assert ws[..i] + ws[i + 1..] == ws[..n - 1];
    } else {
      var front := ws[..n - 1];
      var x, y := ws[i], ws[n - 1];
      FoldWithout(f, init, front, i);
      var rest := front[..i] + front[i + 1..];
      assert ws[..i] + ws[i + 1..] == rest + [y];
      FoldSnoc(f, init, rest, y);
      var acc := FoldLeft(f, init, rest);
      calc {
        FoldLeft(f, init, ws);
        f(f(acc, x), y);
        f(acc, f(x, y));
        f(acc, f(y, x));
        f(f(acc, y), x);
      }
    }
  }

  /** The fold is the same for every arrival order of the same
      contributions. */
  lemma {:induction false} FoldPermutation<T(!new)>(f: (T, T) -> T, init: T, vs: seq<T>, ws: seq<T>)
    requires Commutative(f) && Associative(f) && multiset(vs) == multiset(ws)
    ensures FoldLeft(f, init, vs) == FoldLeft(f, init, ws)
    decreases |vs|
  {
    if vs == [] {
      assert |ws| == |multiset(ws)| == 0;
    } else {
      var n := |vs|;
      var x := vs[n - 1];
      assert vs == vs[..n - 1] + [x];
      assert x in multiset(ws);
      var i :| 0 <= i < |ws| && ws[i] == x;
      var rest := ws[..i] + ws[i + 1..];
      assert ws == ws[..i] + [x] + ws[i + 1..];
      assert multiset(vs) == multiset(vs[..n - 1]) + multiset{x};
      assert multiset(ws) == multiset(ws[..i]) + multiset{x} + multiset(ws[i + 1..]);
      assert multiset(rest) == multiset(ws[..i]) + multiset(ws[i + 1..]);
      assert multiset(vs[..n - 1]) == multiset(vs) - multiset{x};
      assert multiset(rest) == multiset(ws) - multiset{x};
      FoldPermutation(f, init, vs[..n - 1], rest);
      FoldWithout(f, init, ws, i);
    }
  }

  /** When init is a left identity of the reducer, folding from init is
      folding the tail onto the first contribution. */
  lemma {:induction false} FoldFromIdentity<T>(f: (T, T) -> T, e: T, vs: seq<T>)
    requires |vs| >= 1 && forall x :: f(e, x) == x
    ensures FoldLeft(f, e, vs) == FoldLeft(f, vs[0], vs[1..])
    decreases |vs|
  {
    var n := |vs|;
    if n == 1 {
      assert FoldLeft(f, e, vs[..0]) == e;
    } else {
      FoldFromIdentity(f, e, vs[..n - 1]);
      assert vs[..n - 1][1..] == vs[1..][..n - 2];
    }
  }

  /** The node ids 0, 1, ..., n - 1. */
  function Range(n: nat): (r: seq<int>)
    ensures |r| == n && forall i :: 0 <= i < n ==> r[i] == i
  {
    seq(n, i => i)
  }

  /** collective_add, on unbounded integers. */
  function Add(a: int, b: int): int
  {
    a + b
  }

  /** Adding up 0, 1, ..., n - 1 from 0 gives n(n - 1)/2. */
  lemma {:induction false} SumOfRange(n: nat)
    ensures FoldLeft(Add, 0, Range(n)) == n * (n - 1) / 2
  {
    if n > 0 {
      assert Range(n)[..n - 1] == Range(n - 1);
      SumOfRange(n - 1);
    }
  }

  lemma AddCommutes()
    ensures Commutative(Add) && Associative(Add)
  {
  }
}

=== FILE: free.dfy ===
/** Allocator::free and try_merge_buddy_recursive: put a chunk back on
    its free list, then repeatedly join it with its XOR buddy while that
    buddy is tracked, of the same size and free. */
module BuddyFree {
  import opened Bits
  import opened HeapState
  import opened ByteCounts
  import opened Buddy
  import opened Wrappers

  /** Where a run of buddy merges ended: the state and the final chunk. */
  datatype Merged = Merged(heap: Allocator, at: int)

  /** The chunk at k has a buddy it can merge with: the chunk at
      k ^ size exists, has the same size and is free. */
  predicate CanMerge(a: Allocator, k: int)
  {
    && k in a.chunks && 0 <= k && 0 <= a.chunks[k].size
    && var b := Xor(k, a.chunks[k].size);
       b in a.chunks && a.chunks[b].size == a.chunks[k].size && !a.chunks[b].inUse
  }

  /** The buddy k ^ size of a chunk is its neighbour on one side, and when
      it can merge the two are adjacent chunks of the same size. */
  lemma BuddyAdjacent(a: Allocator, k: int)
    requires Valid(a) && CanMerge(a, k)
    ensures var s := a.chunks[k].size;
            var b := Xor(k, s);
            (b == k + s || b == k - s) && IsPow2(s)
  {
    XorPow2(k, a.chunks[k].size);
  }

  /** The free lists after merging lo and hi (both of size s): both
      leave class s (which disappears if that empties it) and lo heads
      class 2 * s. */
  function MergedLists(freeLists: map<int, seq<int>>, lo: int, hi: int, s: int): map<int, seq<int>>
  {
    var l := RemoveFirst(RemoveFirst(ClassList(freeLists, s), hi), lo);
    var fl := if l == [] then freeLists - {s} else freeLists[s := l];
    fl[2 * s := [lo] + ClassList(freeLists, 2 * s)]
  }

  /** One merge of the chunk at k with its buddy: the higher of the two
      is no longer tracked and the lower one, twice as large and free,
      heads the free list of its new size. */
  function MergeOnce(a: Allocator, k: int): (r: Merged)
    requires Valid(a) && CanMerge(a, k) && !a.chunks[k].inUse
    ensures Valid(r.heap) && r.heap.size == a.size
    ensures var s := a.chunks[k].size;
            var b := Xor(k, s);
            && r.at == (if k < b then k else b)
            && r.heap.chunks == (a.chunks - {if k < b then b else k})[r.at := Chunk(false, r.at, 2 * s)]
            && r.at + s == (if k < b then b else k)
    ensures var s := a.chunks[k].size;
            forall t, j {:trigger Listed(r.heap, t, j)} :: Listed(r.heap, t, j) <==>
              (Listed(a, t, j) && !(t == s && (j == k || j == Xor(k, s)))) || (t == 2 * s && j == r.at)
    ensures var s := a.chunks[k].size;
            ClassList(r.heap.freeLists, 2 * s) == [r.at] + ClassList(a.freeLists, 2 * s)
    ensures var s := a.chunks[k].size;
            forall t :: t != s && t != 2 * s ==> ClassList(r.heap.freeLists, t) == ClassList(a.freeLists, t)
    ensures SameInUse(a, r.heap)
  {
    var s := a.chunks[k].size;
    var b := Xor(k, s);
    BuddyAdjacent(a, k);
    var lo := if k < b then k else b;
    var hi := if k < b then b else k;
    var r := Allocator(a.size, (a.chunks - {hi})[lo := Chunk(false, lo, 2 * s)], MergedLists(a.freeLists, lo, hi, s));
    MergeSteps(a, lo, hi, s, r);
    MergeOnceValid(a, k, s, lo, hi, r);
    JoinKeepsInUse(a, r, lo, hi, s);
    Merged(r, lo)
  }

  /** Joining two free chunks leaves the in-use chunks alone. */
  lemma JoinKeepsInUse(a: Allocator, r: Allocator, lo: int, hi: int, s: int)
    requires lo in a.chunks && hi in a.chunks && !a.chunks[lo].inUse && !a.chunks[hi].inUse
    requires r.chunks == (a.chunks - {hi})[lo := Chunk(false, lo, 2 * s)]
    ensures SameInUse(a, r)
  {
  }

  /** Merging a chunk with its buddy removes one chunk from
      num_chunks(). */
  lemma MergeDropsChunk(a: Allocator, k: int)
    requires Valid(a) && CanMerge(a, k) && !a.chunks[k].inUse
    ensures NumChunks(MergeOnce(a, k).heap) == NumChunks(a) - 1
  {
    var r := MergeOnce(a, k);
    var b := Xor(k, a.chunks[k].size);
    var hi := if k < b then b else k;
    var lo := if k < b then k else b;
    BuddyAdjacent(a, k);
    assert (a.chunks - {hi}).Keys == a.chunks.Keys - {hi};
    assert r.heap.chunks.Keys == a.chunks.Keys - {hi};
  }

  /** The calls try_merge_buddy_recursive makes for one merge (source
      order): remove_from_free_list and erase of the higher chunk, then
      remove_from_free_list, doubling and add_to_free_list of the lower. */
  function MergeSequence(a: Allocator, lo: int, hi: int): (r: Allocator)
    requires ListsWellFormed(a.freeLists) && lo in a.chunks && hi in a.chunks && lo != hi
    ensures r.size == a.size
    ensures r.chunks == (a.chunks - {hi})[lo := a.chunks[lo].(inUse := false, size := 2 * a.chunks[lo].size)]
    ensures forall t, j {:trigger Listed(r, t, j)} :: Listed(r, t, j) <==>
              (Listed(a, t, j) && !(t == a.chunks[hi].size && j == hi) && !(t == a.chunks[lo].size && j == lo))
              || (t == 2 * a.chunks[lo].size && j == lo)
  {
    var a1 := RemoveFromFreeList(a, hi);
    var a2 := a1.(chunks := a1.chunks - {hi});
    assert a2.chunks == a.chunks - {hi};
    var a3 := RemoveFromFreeList(a2, lo);
    var a4 := a3.(chunks := a3.chunks[lo := a3.chunks[lo].(size := 2 * a3.chunks[lo].size)]);
    AddToFreeList(a4, lo)
  }

  /** The closed form of a merge is what the source's sequence of calls
      produces, and how its free lists look. */
  lemma MergeSteps(a: Allocator, lo: int, hi: int, s: int, r: Allocator)
    requires FreeListsMirror(a) && s >= 1 && lo != hi
    requires lo in a.chunks && a.chunks[lo] == Chunk(false, lo, s)
    requires hi in a.chunks && a.chunks[hi] == Chunk(false, hi, s)
    requires r == Allocator(a.size, (a.chunks - {hi})[lo := Chunk(false, lo, 2 * s)], MergedLists(a.freeLists, lo, hi, s))
    ensures r == MergeSequence(a, lo, hi)
    ensures ListsWellFormed(r.freeLists)
    ensures forall t, j {:trigger Listed(r, t, j)} :: Listed(r, t, j) <==>
              (Listed(a, t, j) && !(t == s && (j == lo || j == hi))) || (t == 2 * s && j == lo)
  {
    var a1 := RemoveFromFreeList(a, hi);
    var a2 := a1.(chunks := a1.chunks - {hi});
    assert a2.chunks == a.chunks - {hi};
    var a3 := RemoveFromFreeList(a2, lo);
    var a4 := a3.(chunks := a3.chunks[lo := a3.chunks[lo].(size := 2 * a3.chunks[lo].size)]);
    var a5 := AddToFreeList(a4, lo);
    MergeListing(a, lo, hi, s, a1, a2, a3, a4, a5);
    assert a5.chunks == r.chunks;
    assert a5.freeLists == r.freeLists;
  }

  /** How the free lists look after the steps of one merge. */
  lemma MergeListing(a: Allocator, lo: int, hi: int, s: int, a1: Allocator, a2: Allocator, a3: Allocator, a4: Allocator, a5: Allocator)
    requires FreeListsMirror(a) && s >= 1 && lo != hi
    requires lo in a.chunks && a.chunks[lo] == Chunk(false, lo, s)
    requires hi in a.chunks && a.chunks[hi] == Chunk(false, hi, s)
    requires a1 == RemoveFromFreeList(a, hi)
    requires a2 == a1.(chunks := a1.chunks - {hi})
    requires lo in a2.chunks && NoDup(ClassList(a2.freeLists, a2.chunks[lo].size))
    requires a3 == RemoveFromFreeList(a2, lo)
    requires a4 == a3.(chunks := a3.chunks[lo := a3.chunks[lo].(size := 2 * a3.chunks[lo].size)])
    requires a5 == AddToFreeList(a4, lo)
    ensures ListsWellFormed(a5.freeLists)
    ensures forall t, j {:trigger Listed(a5, t, j)} :: Listed(a5, t, j) <==>
              (Listed(a, t, j) && !(t == s && (j == lo || j == hi))) || (t == 2 * s && j == lo)
  {
    assert a2.freeLists == a1.freeLists && a4.freeLists == a3.freeLists;
    assert !Listed(a, 2 * s, lo);
    assert !Listed(a4, 2 * s, lo);
  }

  lemma MergeOnceValid(a: Allocator, k: int, s: int, lo: int, hi: int, r: Allocator)
    requires Valid(a) && CanMerge(a, k) && s == a.chunks[k].size
    requires lo in a.chunks && hi in a.chunks && lo + s == hi && a.chunks[lo].size == s && a.chunks[hi].size == s
    requires !a.chunks[lo].inUse && !a.chunks[hi].inUse
    requires r.size == a.size && r.chunks == (a.chunks - {hi})[lo := Chunk(false, lo, 2 * s)]
    requires ListsWellFormed(r.freeLists)
    requires forall t, j {:trigger Listed(r, t, j)} :: Listed(r, t, j) <==>
               (Listed(a, t, j) && !(t == s && (j == lo || j == hi))) || (t == 2 * s && j == lo)
    ensures Valid(r)
  {
    TilesAfterJoining(a.chunks, a.size, lo, hi, false);
  }

  /** A merge produces exactly what the source's sequence of free-list
      and chunk-map calls produces. */
  lemma MergeFollowsSource(a: Allocator, k: int)
    requires Valid(a) && CanMerge(a, k) && !a.chunks[k].inUse
    ensures var b := Xor(k, a.chunks[k].size);
            var lo := if k < b then k else b;
            var hi := if k < b then b else k;
            lo != hi && MergeOnce(a, k).heap == MergeSequence(a, lo, hi)
  {
    var s := a.chunks[k].size;
    var b := Xor(k, s);
    BuddyAdjacent(a, k);
    var lo := if k < b then k else b;
    var hi := if k < b then b else k;
    MergeSteps(a, lo, hi, s, MergeOnce(a, k).heap);
  }

  /** try_merge_buddy_recursive(k): merge the free chunk at k with its
      buddy and go on from the merged chunk, until the buddy is missing,
      of another size or in use. The result is the chunk the run ended
      at: it covers the chunk at k, is free, cannot merge, and everything
      outside it is untouched. */
  function MergeBuddies(a: Allocator, k: int): (r: Merged)
    requires Valid(a) && k in a.chunks && !a.chunks[k].inUse
    ensures Valid(r.heap) && r.heap.size == a.size
    ensures r.at in r.heap.chunks && !r.heap.chunks[r.at].inUse && !CanMerge(r.heap, r.at)
    ensures r.at <= k && k + a.chunks[k].size <= r.at + r.heap.chunks[r.at].size
    ensures a.chunks[k].size <= r.heap.chunks[r.at].size
    ensures forall j :: j in a.chunks && (j < r.at || r.at + r.heap.chunks[r.at].size <= j) ==>
              j in r.heap.chunks && r.heap.chunks[j] == a.chunks[j]
    ensures SameInUse(a, r.heap)
    ensures !CanMerge(a, k) ==> r == Merged(a, k)
    decreases a.size - a.chunks[k].size
  {
    if CanMerge(a, k) then
      var m := MergeOnce(a, k);
      MergeGrows(a, k, m);
      var r := MergeBuddies(m.heap, m.at);
      MergeNests(a, k, m, r);
      r
    else
      Merged(a, k)
  }

  /** A merge doubles the chunk, which still fits in the arena. */
  lemma MergeGrows(a: Allocator, k: int, m: Merged)
    requires Valid(a) && CanMerge(a, k)
    requires Valid(m.heap) && m.heap.size == a.size
    requires var s := a.chunks[k].size;
             var b := Xor(k, s);
             && m.at == (if k < b then k else b)
             && m.heap.chunks == (a.chunks - {if k < b then b else k})[m.at := Chunk(false, m.at, 2 * s)]
             && m.at + s == (if k < b then b else k)
    ensures m.at in m.heap.chunks && !m.heap.chunks[m.at].inUse
    ensures m.heap.chunks[m.at].size == 2 * a.chunks[k].size <= a.size
    ensures m.at <= k && k + a.chunks[k].size <= m.at + 2 * a.chunks[k].size
    ensures forall j :: j in a.chunks && (j < m.at || m.at + 2 * a.chunks[k].size <= j) ==>
              j in m.heap.chunks && m.heap.chunks[j] == a.chunks[j]
  {
  }

  /** The rest of the run after one merge covers the merged chunk, so it
      covers the original chunk too. */
  lemma MergeNests(a: Allocator, k: int, m: Merged, r: Merged)
    requires Valid(a) && CanMerge(a, k) && !a.chunks[k].inUse
    requires m.at in m.heap.chunks && m.heap.chunks[m.at].size == 2 * a.chunks[k].size
    requires m.at <= k && k + a.chunks[k].size <= m.at + 2 * a.chunks[k].size
    requires forall j :: j in a.chunks && (j < m.at || m.at + 2 * a.chunks[k].size <= j) ==>
               j in m.heap.chunks && m.heap.chunks[j] == a.chunks[j]
    requires SameInUse(a, m.heap)
    requires r.at in r.heap.chunks
    requires r.at <= m.at && m.at + m.heap.chunks[m.at].size <= r.at + r.heap.chunks[r.at].size
    requires m.heap.chunks[m.at].size <= r.heap.chunks[r.at].size
    requires forall j :: j in m.heap.chunks && (j < r.at || r.at + r.heap.chunks[r.at].size <= j) ==>
               j in r.heap.chunks && r.heap.chunks[j] == m.heap.chunks[j]
    requires SameInUse(m.heap, r.heap)
    ensures r.at <= k && k + a.chunks[k].size <= r.at + r.heap.chunks[r.at].size
    ensures a.chunks[k].size <= r.heap.chunks[r.at].size
    ensures forall j :: j in a.chunks && (j < r.at || r.at + r.heap.chunks[r.at].size <= j) ==>
              j in r.heap.chunks && r.heap.chunks[j] == a.chunks[j]
    ensures SameInUse(a, r.heap)
  {
  }

  /** Free of offset in a ended in r at the chunk at `at`: a free chunk
      covering offset that cannot merge, with every chunk of a outside it
      unchanged in r. */
  ghost predicate EndsAt(a: Allocator, r: Allocator, offset: int, at: int)
  {
    && at in r.chunks && !r.chunks[at].inUse
    && at <= offset < at + r.chunks[at].size
    && !CanMerge(r, at)
    && forall j :: j in a.chunks && (j < at || at + r.chunks[at].size <= j) ==>
         j in r.chunks && r.chunks[j] == a.chunks[j]
  }

  /** Allocator::free(offset): the chunk must be tracked and in use (the
      source asserts both; a failed assertion is None here). It goes back
      on its free list and then merges with its buddies. */
  function Free(a: Allocator, offset: int): (r: Option<Allocator>)
    requires Valid(a)
    ensures r.None? <==> !(offset in a.chunks && a.chunks[offset].inUse)
    ensures r.Some? ==> Valid(r.value) && r.value.size == a.size
    ensures r.Some? ==> TotalBytes(r.value) == TotalBytes(a)
    ensures r.Some? ==> BytesInUse(r.value) == BytesInUse(a) - a.chunks[offset].size
    ensures r.Some? ==> BytesFree(r.value) == BytesFree(a) + a.chunks[offset].size
    ensures r.Some? ==> exists at :: EndsAt(a, r.value, offset, at)
    ensures r.Some? ==> forall j :: j in a.chunks && j != offset && a.chunks[j].inUse ==>
                          j in r.value.chunks && r.value.chunks[j] == a.chunks[j]
    ensures r.Some? ==> forall j :: j in r.value.chunks && r.value.chunks[j].inUse ==>
                          j in a.chunks && j != offset && a.chunks[j] == r.value.chunks[j]
  {
    if offset in a.chunks && a.chunks[offset].inUse then
      var b := AddToFreeList(a, offset);
      ReleaseChunk(a, offset);
      FreeCounts(a, offset, b);
      FreeCovers(a, offset, b);
      FreeKeepsOthers(a, offset, b);
      Some(MergeBuddies(b, offset).heap)
    else
      None
  }

  /** Merging the released chunk b (the chunk at offset put back on its
      free list) with its buddies gives a valid state in which the chunk's
      bytes moved from in use to free. */
  lemma FreeCounts(a: Allocator, offset: int, b: Allocator)
    requires Valid(a) && offset in a.chunks && a.chunks[offset].inUse
    requires b == AddToFreeList(a, offset) && Valid(b)
    ensures var r := MergeBuddies(b, offset).heap;
            && Valid(r) && r.size == a.size
            && TotalBytes(r) == TotalBytes(a)
            && BytesInUse(r) == BytesInUse(a) - a.chunks[offset].size
            && BytesFree(r) == BytesFree(a) + a.chunks[offset].size
  {
    ReleaseChunk(a, offset);
    var m := MergeBuddies(b, offset);
    FreeAccounting(a, b, m.heap);
  }

  /** The merges end at an unmergeable free chunk covering offset, and
      every chunk outside it is as it was before free. */
  lemma FreeCovers(a: Allocator, offset: int, b: Allocator)
    requires Valid(a) && offset in a.chunks && a.chunks[offset].inUse
    requires b == AddToFreeList(a, offset) && Valid(b)
    ensures exists at :: EndsAt(a, MergeBuddies(b, offset).heap, offset, at)
  {
    var m := MergeBuddies(b, offset);
    assert b.chunks[offset].size >= 1;
    FreeEnds(a, offset, b, m);
    assert EndsAt(a, m.heap, offset, m.at);
  }

  /** Free leaves every other in-use chunk tracked and unchanged, and puts
      no chunk in use. */
  lemma FreeKeepsOthers(a: Allocator, offset: int, b: Allocator)
    requires Valid(a) && offset in a.chunks && a.chunks[offset].inUse
    requires b == AddToFreeList(a, offset) && Valid(b)
    ensures var r := MergeBuddies(b, offset).heap;
            && (forall j :: j in a.chunks && j != offset && a.chunks[j].inUse ==>
                  j in r.chunks && r.chunks[j] == a.chunks[j])
            && (forall j :: j in r.chunks && r.chunks[j].inUse ==>
                  j in a.chunks && j != offset && a.chunks[j] == r.chunks[j])
  {
    var m := MergeBuddies(b, offset);
    FreeFrame(a, offset, b, m.heap);
  }

  /** The chunks outside where free ends are as they were before the
      release: the release changed only the chunk at offset, which lies
      inside. */
  lemma FreeEnds(a: Allocator, offset: int, b: Allocator, m: Merged)
    requires offset in a.chunks
    requires b.chunks == a.chunks[offset := a.chunks[offset].(inUse := false)]
    requires m.at in m.heap.chunks
    requires m.at <= offset < m.at + m.heap.chunks[m.at].size
    requires forall j :: j in b.chunks && (j < m.at || m.at + m.heap.chunks[m.at].size <= j) ==>
               j in m.heap.chunks && m.heap.chunks[j] == b.chunks[j]
    ensures forall j :: j in a.chunks && (j < m.at || m.at + m.heap.chunks[m.at].size <= j) ==>
              j in m.heap.chunks && m.heap.chunks[j] == a.chunks[j]
  {
  }

  /** The frame of free: releasing the chunk at offset and merging free
      chunks leave every other in-use chunk tracked and unchanged, and
      add no in-use chunk. */
  lemma FreeFrame(a: Allocator, offset: int, b: Allocator, r: Allocator)
    requires offset in a.chunks
    requires b.chunks == a.chunks[offset := a.chunks[offset].(inUse := false)]
    requires SameInUse(b, r)
    ensures forall j :: j in a.chunks && j != offset && a.chunks[j].inUse ==>
              j in r.chunks && r.chunks[j] == a.chunks[j]
    ensures forall j :: j in r.chunks && r.chunks[j].inUse ==>
              j in a.chunks && j != offset && a.chunks[j] == r.chunks[j]
  {
  }

  /** The byte counters across free: releasing the chunk moves its size
      from in use to free, and merging changes neither. */
  lemma FreeAccounting(a: Allocator, b: Allocator, r: Allocator)
    requires Valid(a) && Valid(b) && Valid(r) && b.size == a.size && r.size == a.size
    requires SameInUse(b, r)
    ensures TotalBytes(r) == TotalBytes(a)
    ensures BytesInUse(r) == BytesInUse(b)
    ensures BytesFree(r) == BytesFree(b)
  {
    SameInUseBytes(b, r);
    InUsePlusFree(b);
    InUsePlusFree(r);
  }
}

=== FILE: heap_state.dfy ===
/** The state of the buddy allocator and the bookkeeping primitives that
    every operation is built from. Addresses are offsets from the arena
    base; the base pointer itself is never needed. */
module HeapState {
  import opened Bits

  /** The arena size is an int64_t in the allocator. */
  const MaxArena: int := 0x7FFF_FFFF_FFFF_FFFF

  /** A tracked region [address, address + size) of the arena. */
  datatype Chunk = Chunk(inUse: bool, address: int, size: int)

  /** The allocator: arena size, offset -> chunk, and size class ->
      free list (front first). */
  datatype Allocator = Allocator(size: int, chunks: map<int, Chunk>, freeLists: map<int, seq<int>>)

  predicate NoDup(l: seq<int>)
  {
    forall i, j :: 0 <= i < j < |l| ==> l[i] != l[j]
  }

  /** The free list of class s; a class without an entry has no chunks. */
  function ClassList(freeLists: map<int, seq<int>>, s: int): (l: seq<int>)
    ensures s !in freeLists ==> l == []
    ensures s in freeLists ==> l == freeLists[s]
  {
    if s in freeLists then freeLists[s] else []
  }

  /** Chunk k sits in the free list of class s. */
  predicate Listed(a: Allocator, s: int, k: int)
  {
    s in a.freeLists && k in a.freeLists[s]
  }

  /** Every free-list entry is non-empty and holds no offset twice. */
  ghost predicate ListsWellFormed(freeLists: map<int, seq<int>>)
  {
    forall s :: s in freeLists ==> freeLists[s] != [] && NoDup(freeLists[s])
  }

  /** Which chunks a counter adds up. */
  datatype Tally = AllChunks | InUseOnly | FreeOnly

  predicate Counted(c: Chunk, t: Tally)
  {
    match t
    case AllChunks => true
    case InUseOnly => c.inUse
    case FreeOnly => !c.inUse
  }

  /** What offset j contributes to a counter. */
  function Contribution(chunks: map<int, Chunk>, j: int, t: Tally): int
  {
    if j in chunks && Counted(chunks[j], t) then chunks[j].size else 0
  }

  /** Sum of the selected chunk sizes over the offsets in [lo, hi). */
  function SumSizes(chunks: map<int, Chunk>, lo: int, hi: int, t: Tally): int
    decreases hi - lo
  {
    if lo >= hi then 0 else Contribution(chunks, lo, t) + SumSizes(chunks, lo + 1, hi, t)
  }

  /** Two chunk maps that agree on what every offset contributes have the
      same sum. */
  lemma {:induction false} SumSame(m1: map<int, Chunk>, m2: map<int, Chunk>, lo: int, hi: int, t: Tally)
    requires forall j :: lo <= j < hi ==> Contribution(m1, j, t) == Contribution(m2, j, t)
    ensures SumSizes(m1, lo, hi, t) == SumSizes(m2, lo, hi, t)
    decreases hi - lo
  {
    if lo < hi {
      SumSame(m1, m2, lo + 1, hi, t);
    }
  }

  /** Changing what one offset k contributes changes the sum by exactly
      that difference. */
  lemma {:induction false} SumPoint(m1: map<int, Chunk>, m2: map<int, Chunk>, lo: int, hi: int, t: Tally, k: int)
    requires lo <= k < hi
    requires forall j :: lo <= j < hi && j != k ==> Contribution(m1, j, t) == Contribution(m2, j, t)
    ensures SumSizes(m2, lo, hi, t) == SumSizes(m1, lo, hi, t) - Contribution(m1, k, t) + Contribution(m2, k, t)
    decreases hi - lo
  {
    if lo == k {
      SumSame(m1, m2, lo + 1, hi, t);
    } else {
      SumPoint(m1, m2, lo + 1, hi, t, k);
    }
  }

  /** Offsets that start no chunk contribute nothing. */
  lemma {:induction false} SumSkip(m: map<int, Chunk>, lo: int, mid: int, hi: int, t: Tally)
    requires lo <= mid <= hi
    requires forall j :: lo <= j < mid ==> j !in m
    ensures SumSizes(m, lo, hi, t) == SumSizes(m, mid, hi, t)
    decreases mid - lo
  {
    if lo < mid {
      SumSkip(m, lo + 1, mid, hi, t);
    }
  }

  /** A sum over [lo, hi) splits at any mid point. */
  lemma {:induction false} SumAppend(m: map<int, Chunk>, lo: int, mid: int, hi: int, t: Tally)
    requires lo <= mid <= hi
    ensures SumSizes(m, lo, hi, t) == SumSizes(m, lo, mid, t) + SumSizes(m, mid, hi, t)
    decreases mid - lo
  {
    if lo < mid {
      SumAppend(m, lo + 1, mid, hi, t);
    }
  }

  /** Non-overlapping chunks that start and end inside [lo, hi) add up to
      at most its length. */
  lemma {:induction false} SumBounded(m: map<int, Chunk>, lo: int, hi: int)
    requires forall j :: j in m && lo <= j < hi ==> m[j].size >= 1 && j + m[j].size <= hi
    requires Disjoint(m)
    ensures SumSizes(m, lo, hi, AllChunks) <= if lo <= hi then hi - lo else 0
    decreases hi - lo
  {
    if lo < hi {
      if lo in m {
        var q := lo + m[lo].size;
        forall j | lo + 1 <= j < q
          ensures j !in m
        {
          assert Apart(m, lo, j);
        }
        SumSkip(m, lo + 1, q, hi, AllChunks);
        SumBounded(m, q, hi);
      } else {
        SumBounded(m, lo + 1, hi);
      }
    }
  }

  /** Chunks k1 < k2 of the map do not overlap. */
  ghost predicate Apart(chunks: map<int, Chunk>, k1: int, k2: int)
  {
    k1 in chunks && k2 in chunks && k1 < k2 ==> k1 + chunks[k1].size <= k2
  }

  /** No two tracked chunks overlap. Each use names the pair it needs
      (through Apart), which keeps this pairwise fact from being applied
      to every pair of offsets in sight. */
  ghost predicate Disjoint(chunks: map<int, Chunk>)
  {
    forall k1, k2 {:trigger Apart(chunks, k1, k2)} :: Apart(chunks, k1, k2)
  }

  /** The tracked chunks exactly tile [0, end): each one is a power of two
      inside the range, no two overlap, and together they are exactly as
      long as the range, so no byte is left out (see
      ByteCounts.ByteCovered). */
  ghost predicate Tiles(chunks: map<int, Chunk>, end: int)
  {
    && (forall k :: k in chunks ==>
          chunks[k].address == k && IsPow2(chunks[k].size) && 0 <= k && k + chunks[k].size <= end)
    && Disjoint(chunks)
    && SumSizes(chunks, 0, end, AllChunks) == end
  }

  /** The free lists hold exactly the free chunks, each under its size. */
  ghost predicate FreeListsMirror(a: Allocator)
  {
    && ListsWellFormed(a.freeLists)
    && (forall s, k :: Listed(a, s, k) ==> k in a.chunks && a.chunks[k].size == s && !a.chunks[k].inUse)
    && (forall k :: k in a.chunks && !a.chunks[k].inUse ==> Listed(a, a.chunks[k].size, k))
  }

  /** The allocator invariant that construction establishes and malloc
      and free preserve. */
  ghost predicate Valid(a: Allocator)
  {
    && 1 <= a.size <= MaxArena
    && Tiles(a.chunks, a.size)
    && FreeListsMirror(a)
  }

  /** A chunk is in free_lists_[s] iff it is tracked, has size s and is
      not in use. */
  lemma FreeListMembership(a: Allocator, s: int, k: int)
    requires Valid(a)
    ensures Listed(a, s, k) <==> k in a.chunks && a.chunks[k].size == s && !a.chunks[k].inUse
  {
  }

  /** The free list a tracked chunk's size class holds no offset twice. */
  lemma ClassNoDup(a: Allocator, k: int)
    requires Valid(a) && k in a.chunks
    ensures NoDup(ClassList(a.freeLists, a.chunks[k].size))
  {
  }

  /** l without its first occurrence of k. */
  function RemoveFirst(l: seq<int>, k: int): (r: seq<int>)
    ensures NoDup(l) ==> NoDup(r) && forall j :: j in r <==> j in l && j != k
    ensures k in l ==> |r| == |l| - 1
    ensures k !in l ==> r == l
  {
    if l == [] then []
    else if l[0] == k then l[1..]
    else
      var r' := RemoveFirst(l[1..], k);
      assert NoDup(l) ==> l[0] !in l[1..];
      [l[0]] + r'
  }

  /** Erasing k from a list that holds it once keeps the other elements
      in their order: what precedes k and what follows it close up. */
  lemma {:induction false} RemoveFirstAt(p: seq<int>, k: int, q: seq<int>)
    requires k !in p
    ensures RemoveFirst(p + [k] + q, k) == p + q
  {
    if p == [] {
      assert p + [k] + q == [k] + q;
    } else {
      assert (p + [k] + q)[1..] == p[1..] + [k] + q;
      RemoveFirstAt(p[1..], k, q);
      assert p + q == [p[0]] + (p[1..] + q);
    }
  }

  /** remove_from_free_list: take chunk k out of its size class, drop the
      class when its list empties, and mark k in use. */
  function RemoveFromFreeList(a: Allocator, k: int): (r: Allocator)
    requires k in a.chunks
    requires NoDup(ClassList(a.freeLists, a.chunks[k].size))
    ensures r.size == a.size && r.chunks == a.chunks[k := a.chunks[k].(inUse := true)]
    ensures forall s, j {:trigger Listed(r, s, j)} :: Listed(r, s, j) <==> Listed(a, s, j) && !(s == a.chunks[k].size && j == k)
    ensures ListsWellFormed(a.freeLists) ==> ListsWellFormed(r.freeLists)
    ensures r.freeLists.Keys <= a.freeLists.Keys
    ensures forall t :: t != a.chunks[k].size ==> ClassList(r.freeLists, t) == ClassList(a.freeLists, t)
  {
    var s := a.chunks[k].size;
    var l := RemoveFirst(ClassList(a.freeLists, s), k);
    a.(chunks := a.chunks[k := a.chunks[k].(inUse := true)],
       freeLists := if l == [] then a.freeLists - {s} else a.freeLists[s := l])
  }

  /** add_to_free_list: push chunk k onto the front of its size class and
      mark it free. */
  function AddToFreeList(a: Allocator, k: int): (r: Allocator)
    requires k in a.chunks
    ensures r.size == a.size && r.chunks == a.chunks[k := a.chunks[k].(inUse := false)]
    ensures forall s, j {:trigger Listed(r, s, j)} :: Listed(r, s, j) <==> Listed(a, s, j) || (s == a.chunks[k].size && j == k)
    ensures ClassList(r.freeLists, a.chunks[k].size) == [k] + ClassList(a.freeLists, a.chunks[k].size)
    ensures ListsWellFormed(a.freeLists) && !Listed(a, a.chunks[k].size, k) ==> ListsWellFormed(r.freeLists)
    ensures r.freeLists.Keys == a.freeLists.Keys + {a.chunks[k].size}
    ensures forall t :: t != a.chunks[k].size ==> ClassList(r.freeLists, t) == ClassList(a.freeLists, t)
  {
    var s := a.chunks[k].size;
    var l := [k] + ClassList(a.freeLists, s);
    assert forall j :: j in l <==> j == k || j in ClassList(a.freeLists, s);
    a.(chunks := a.chunks[k := a.chunks[k].(inUse := false)], freeLists := a.freeLists[s := l])
  }

  /** add_to_chunk_map: start tracking chunk c; its offset must be new. */
  function AddToChunkMap(a: Allocator, c: Chunk): (r: Allocator)
    requires c.address !in a.chunks
    ensures r.size == a.size && r.freeLists == a.freeLists
    ensures r.chunks.Keys == a.chunks.Keys + {c.address}
    ensures r.chunks[c.address] == c && forall j :: j in a.chunks ==> r.chunks[j] == a.chunks[j]
  {
    a.(chunks := a.chunks[c.address := c])
  }

  /** Marking a chunk in use or free leaves a tiling. */
  lemma TilesAfterMarking(m: map<int, Chunk>, end: int, k: int, inUse: bool)
    requires Tiles(m, end) && k in m
    ensures Tiles(m[k := m[k].(inUse := inUse)], end)
  {
    var m' := m[k := m[k].(inUse := inUse)];
    forall j1, j2 {:trigger Apart(m', j1, j2)}
      ensures Apart(m', j1, j2)
    {
      assert Apart(m, j1, j2);
    }
    assert forall j :: Contribution(m', j, AllChunks) == Contribution(m, j, AllChunks);
    SumSame(m, m', 0, end, AllChunks);
  }

  /** Cutting a chunk of a tiling into two halves leaves a tiling. */
  lemma TilesAfterHalving(m: map<int, Chunk>, end: int, k: int, h: int)
    requires Tiles(m, end) && k in m && m[k].size == 2 * h && IsPow2(h) && k + h !in m
    ensures Tiles(m[k := Chunk(m[k].inUse, k, h)][k + h := Chunk(false, k + h, h)], end)
  {
    var m1 := m[k := Chunk(m[k].inUse, k, h)];
    var m' := m1[k + h := Chunk(false, k + h, h)];
    forall j1, j2 {:trigger Apart(m', j1, j2)}
      ensures Apart(m', j1, j2)
    {
      assert Apart(m, j1, j2) && Apart(m, k, j2) && Apart(m, j1, k) && Apart(m, k, j1);
    }
    SumPoint(m, m1, 0, end, AllChunks, k);
    SumPoint(m1, m', 0, end, AllChunks, k + h);
  }

  /** Joining two adjacent chunks of equal size in a tiling into one chunk
      of twice the size leaves a tiling. */
  lemma TilesAfterJoining(m: map<int, Chunk>, end: int, lo: int, hi: int, inUse: bool)
    requires Tiles(m, end) && lo in m && hi in m && lo + m[lo].size == hi && m[hi].size == m[lo].size
    ensures Tiles((m - {hi})[lo := Chunk(inUse, lo, 2 * m[lo].size)], end)
  {
    var s := m[lo].size;
    var m1 := m - {hi};
    var m' := m1[lo := Chunk(inUse, lo, 2 * s)];
    assert (2 * s) / 2 == s;
    forall j1, j2 {:trigger Apart(m', j1, j2)}
      ensures Apart(m', j1, j2)
    {
      if j1 == lo && j2 in m' && lo < j2 {
        assert Apart(m, lo, j2) && Apart(m, hi, j2);
      } else {
        assert Apart(m, j1, j2);
      }
    }
    SumPoint(m, m1, 0, end, AllChunks, hi);
    SumPoint(m1, m', 0, end, AllChunks, lo);
  }

  /** Appending a chunk right after a tiling of [0, offset) tiles the
      longer range. */
  lemma TilesAfterPlacing(m: map<int, Chunk>, offset: int, c: Chunk)
    requires Tiles(m, offset) && 0 <= offset && c.address == offset && IsPow2(c.size)
    ensures Tiles(m[offset := c], offset + c.size)
  {
    var m' := m[offset := c];
    var e := offset + c.size;
    forall j1, j2 {:trigger Apart(m', j1, j2)}
      ensures Apart(m', j1, j2)
    {
      assert Apart(m, j1, j2);
    }
    SumAppend(m', 0, offset, e, AllChunks);
    SumSame(m, m', 0, offset, AllChunks);
    SumSkip(m', offset + 1, e, e, AllChunks);
  }
}

=== FILE: reduction.dfy ===
/** The home node's side of the scalar all-reduce: every node sends its
    value to node 0, whose handler folds it into a static accumulator and
    counts arrivals; the N-th arrival resets the count and wakes every
    node with the result. The transport is abstract: a handler run is a
    function from the statics and one contribution to the new statics and
    the wake-up messages it sends, in order. */
module Reduction {
  import opened Folds

  /** The statics on node 0: reduction_reported_in and
      Reductions<T>::reduction_result. */
  datatype Home<T> = Home(reportedIn: nat, acc: T)

  /** Grappa_call_on(node, &am_reduce_wake, &value). */
  datatype Wake<T> = Wake(node: nat, value: T)

  /** One handler run: the statics afterwards and the messages sent. */
  datatype Step<T> = Step(home: Home<T>, sent: seq<Wake<T>>)

  /** How a round starts: am_reduce folds onto BaseVal, am_reduce_noinit
      takes the first contribution as it is. */
  datatype Init<T> = FromBase(base: T) | FromFirst

  /** The wake-up loop: node 0, 1, ..., nodes - 1 each get the value. */
  function Broadcast<T>(nodes: nat, v: T): (msgs: seq<Wake<T>>)
    ensures |msgs| == nodes
    ensures forall n :: 0 <= n < nodes ==> msgs[n] == Wake(n, v)
    decreases nodes
  {
    if nodes == 0 then [] else Broadcast(nodes - 1, v) + [Wake(nodes - 1, v)]
  }

  /** The shared tail of the handlers: count the arrival; on the last one
      reset the count and wake every node with the accumulator. */
  function Report<T>(count: nat, nodes: nat, acc: T): Step<T>
  {
    if count == nodes then Step(Home(0, acc), Broadcast(nodes, acc))
    else Step(Home(count, acc), [])
  }

  /** am_reduce: the first arrival of a round resets the accumulator to
      BaseVal; every arrival folds its value in and is counted. */
  function AmReduce<T>(h: Home<T>, nodes: nat, f: (T, T) -> T, base: T, v: T): (r: Step<T>)
    ensures r.home.acc == f(if h.reportedIn == 0 then base else h.acc, v)
    ensures h.reportedIn < nodes ==> r.home.reportedIn < nodes
    ensures h.reportedIn + 1 == nodes ==> r.home.reportedIn == 0 && r.sent == Broadcast(nodes, r.home.acc)
    ensures h.reportedIn + 1 != nodes ==> r.home.reportedIn == h.reportedIn + 1 && r.sent == []
  {
    var acc := if h.reportedIn == 0 then base else h.acc;
    Report(h.reportedIn + 1, nodes, f(acc, v))
  }

  /** am_reduce_noinit: the first arrival of a round becomes the
      accumulator; later ones are folded in. */
  function AmReduceNoInit<T>(h: Home<T>, nodes: nat, f: (T, T) -> T, v: T): (r: Step<T>)
    ensures r.home.acc == if h.reportedIn == 0 then v else f(h.acc, v)
    ensures h.reportedIn < nodes ==> r.home.reportedIn < nodes
    ensures h.reportedIn + 1 == nodes ==> r.home.reportedIn == 0 && r.sent == Broadcast(nodes, r.home.acc)
    ensures h.reportedIn + 1 != nodes ==> r.home.reportedIn == h.reportedIn + 1 && r.sent == []
  {
    Report(h.reportedIn + 1, nodes, if h.reportedIn == 0 then v else f(h.acc, v))
  }

  /** The handler a round runs. */
  function Handle<T>(h: Home<T>, nodes: nat, f: (T, T) -> T, init: Init<T>, v: T): Step<T>
  {
    match init
    case FromBase(base) => AmReduce(h, nodes, f, base, v)
    case FromFirst => AmReduceNoInit(h, nodes, f, v)
  }

  /** The handler run once per contribution, in arrival order; the
      messages are everything the runs sent, in order. */
  function Arrivals<T>(h: Home<T>, nodes: nat, f: (T, T) -> T, init: Init<T>, vs: seq<T>): Step<T>
    decreases |vs|
  {
    if vs == [] then Step(h, [])
    else
      var p := Arrivals(h, nodes, f, init, vs[..|vs| - 1]);
      var s := Handle(p.home, nodes, f, init, vs[|vs| - 1]);
      Step(s.home, p.sent + s.sent)
  }

  /** What a round folds its contributions to: BaseVal then every value,
      or the first value then the rest. */
  function RoundValue<T>(f: (T, T) -> T, init: Init<T>, vs: seq<T>): T
    requires |vs| >= 1
  {
    match init
    case FromBase(base) => FoldLeft(f, base, vs)
    case FromFirst => FoldLeft(f, vs[0], vs[1..])
  }

  /** Each further contribution folds onto the round's value so far. */
  lemma RoundValueSnoc<T>(f: (T, T) -> T, init: Init<T>, vs: seq<T>)
    requires |vs| >= 2
    ensures RoundValue(f, init, vs) == f(RoundValue(f, init, vs[..|vs| - 1]), vs[|vs| - 1])
  {
    assert vs[1..][..|vs| - 2] == vs[..|vs| - 1][1..];
  }

  /** The first arrival of a round starts the round's value. */
  lemma RoundValueFirst<T>(h: Home<T>, nodes: nat, f: (T, T) -> T, init: Init<T>, v: T)
    requires h.reportedIn == 0
    ensures Handle(h, nodes, f, init, v).home.acc == RoundValue(f, init, [v])
  {
    assert [v][..0] == [] && [v][1..] == [];
    match init
    case FromBase(base) =>
      assert FoldLeft(f, base, [v]) == f(FoldLeft(f, base, []), v);
    case FromFirst =>
  }

  /** Part-way through a round that started at count 0: no message has
      gone out, the count is the number of arrivals and the accumulator
      is the round's value so far. */
  lemma {:induction false} RoundInProgress<T>(h: Home<T>, nodes: nat, f: (T, T) -> T, init: Init<T>, vs: seq<T>)
    requires h.reportedIn == 0 && 1 <= |vs| < nodes
    ensures Arrivals(h, nodes, f, init, vs) == Step(Home(|vs|, RoundValue(f, init, vs)), [])
    decreases |vs|
  {
    var n := |vs|;
    if n == 1 {
      assert vs[..0] == [] && vs == [vs[0]];
      RoundValueFirst(h, nodes, f, init, vs[0]);
    } else {
      RoundInProgress(h, nodes, f, init, vs[..n - 1]);
      RoundValueSnoc(f, init, vs);
    }
  }

  /** A whole round from count 0: after exactly `nodes` arrivals the
      count is back to 0 and each node gets exactly one wake-up carrying
      the fold of the contributions. */
  lemma RoundComplete<T>(h: Home<T>, nodes: nat, f: (T, T) -> T, init: Init<T>, vs: seq<T>)
    requires h.reportedIn == 0 && |vs| == nodes >= 1
    ensures Arrivals(h, nodes, f, init, vs)
            == Step(Home(0, RoundValue(f, init, vs)), Broadcast(nodes, RoundValue(f, init, vs)))
  {
    if nodes == 1 {
      assert vs[..0] == [] && vs == [vs[0]];
      RoundValueFirst(h, nodes, f, init, vs[0]);
    } else {
      RoundInProgress(h, nodes, f, init, vs[..nodes - 1]);
      RoundValueSnoc(f, init, vs);
    }
  }

  /** Between handler runs the count stays in 0..nodes-1, whatever
      arrives. */
  lemma {:induction false} CountStaysBelow<T>(h: Home<T>, nodes: nat, f: (T, T) -> T, init: Init<T>, vs: seq<T>)
    requires h.reportedIn < nodes
    ensures Arrivals(h, nodes, f, init, vs).home.reportedIn < nodes
    decreases |vs|
  {
    if vs != [] {
      CountStaysBelow(h, nodes, f, init, vs[..|vs| - 1]);
    }
  }

  /** With a commutative, associative reducer (as Grappa_allreduce
      documents) the round's outcome does not depend on the order in
      which the contributions arrive. */
  lemma ArrivalOrderIrrelevant<T(!new)>(h: Home<T>, nodes: nat, f: (T, T) -> T, base: T, vs: seq<T>, ws: seq<T>)
    requires Commutative(f) && Associative(f)
    requires h.reportedIn == 0 && |vs| == nodes >= 1 && multiset(vs) == multiset(ws)
    ensures Arrivals(h, nodes, f, FromBase(base), vs) == Arrivals(h, nodes, f, FromBase(base), ws)
  {
    assert |ws| == |multiset(ws)| == |vs|;
    RoundComplete(h, nodes, f, FromBase(base), vs);
    RoundComplete(h, nodes, f, FromBase(base), ws);
    FoldPermutation(f, base, vs, ws);
  }

  /** Each node contributing its own id to an add-reduction from 0, in any
      order, every node is woken with n(n - 1)/2. */
  lemma NodeIdSum(h: Home<int>, nodes: nat, vs: seq<int>)
    requires h.reportedIn == 0 && nodes >= 1 && multiset(vs) == multiset(Range(nodes))
    ensures Arrivals(h, nodes, Add, FromBase(0), vs).sent == Broadcast(nodes, nodes * (nodes - 1) / 2)
  {
    AddCommutes();
    ArrivalOrderIrrelevant(h, nodes, Add, 0, Range(nodes), vs);
    RoundComplete(h, nodes, Add, FromBase(0), Range(nodes));
    SumOfRange(nodes);
  }

  /** am_reduce_noinit on a single node wakes it with its own value. */
  lemma NoInitSingleNode<T>(h: Home<T>, f: (T, T) -> T, v: T)
    requires h.reportedIn == 0
    ensures AmReduceNoInit(h, 1, f, v) == Step(Home(0, v), [Wake(0, v)])
  {
  }

  /** When BaseVal is a left identity of the reducer, the no-init round
      and the BaseVal round wake the nodes with the same value. */
  lemma NoInitAgreesWithIdentity<T>(h: Home<T>, nodes: nat, f: (T, T) -> T, e: T, vs: seq<T>)
    requires forall x :: f(e, x) == x
    requires h.reportedIn == 0 && |vs| == nodes >= 1
    ensures Arrivals(h, nodes, f, FromFirst, vs) == Arrivals(h, nodes, f, FromBase(e), vs)
  {
    RoundComplete(h, nodes, f, FromFirst, vs);
    RoundComplete(h, nodes, f, FromBase(e), vs);
    FoldFromIdentity(f, e, vs);
  }
}

=== FILE: reduction_array.dfy ===
/** The home node's side of the element-wise all-reduce: each arrival
    carries sz bytes, i.e. sz / sizeof(T) elements; the first arrival of a
    round allocates a result array filled with BaseVal, every arrival
    folds its elements in position by position, and the N-th wakes every
    node with the whole array and frees it. */
module ArrayReduction {
  import opened Bits
  import opened Folds
  import opened Reduction

  /** The element count the handler reads off the payload size: the
      number of whole elements that fit in sz bytes. */
  function ElementCount(sz: nat, elemSize: nat): (n: nat)
    requires elemSize >= 1
    ensures n * elemSize <= sz < (n + 1) * elemSize
  {
    var n := sz / elemSize;
    assert sz == elemSize * n + sz % elemSize;
    n
  }

  /** sizeof(T) * nelem: the bytes a payload of nelem elements takes. */
  function PayloadSize(elemSize: nat, n: nat): nat
  {
    elemSize * n
  }

  /** A payload of n elements of elemSize bytes carries exactly n
      elements. */
  lemma PayloadCount(elemSize: nat, n: nat)
    requires elemSize >= 1
    ensures ElementCount(PayloadSize(elemSize, n), elemSize) == n
  {
    DivModUnique(elemSize * n, elemSize, n, 0);
  }

  /** The handler's inner loop: rarray[i] = Reducer(rarray[i], val[i]) for
      i < nelem, the rest of rarray untouched. */
  function FoldInto<T>(acc: seq<T>, val: seq<T>, nelem: nat, f: (T, T) -> T): (r: seq<T>)
    requires nelem <= |acc| && nelem <= |val|
    ensures |r| == |acc|
    ensures forall i :: 0 <= i < nelem ==> r[i] == f(acc[i], val[i])
    ensures forall i :: nelem <= i < |acc| ==> r[i] == acc[i]
    decreases nelem
  {
    if nelem == 0 then acc
    else FoldInto(acc, val, nelem - 1, f)[nelem - 1 := f(acc[nelem - 1], val[nelem - 1])]
  }

  /** What element i becomes on an arrival: folded onto BaseVal at the
      start of a round, onto the running value otherwise. */
  function Combined<T>(h: Home<seq<T>>, f: (T, T) -> T, base: T, val: seq<T>, nelem: nat): (r: seq<T>)
    requires nelem <= |val| && (h.reportedIn != 0 ==> nelem <= |h.acc|)
  {
    seq(nelem, i requires 0 <= i < nelem => f(if h.reportedIn == 0 then base else h.acc[i], val[i]))
  }

  /** am_reduce_array: allocate and fill with BaseVal on the first arrival,
      fold the arriving elements in, count the arrival; on the N-th send
      every node the first nelem elements, reset the count and free the
      array (modelled as the empty array). The source needs the payload to
      hold nelem elements and, mid-round, the array to be at least that
      long. */
  function AmReduceArray<T>(h: Home<seq<T>>, nodes: nat, f: (T, T) -> T, base: T,
                            val: seq<T>, sz: nat, elemSize: nat): (r: Step<seq<T>>)
    requires elemSize >= 1
    requires ElementCount(sz, elemSize) <= |val|
    requires h.reportedIn != 0 ==> ElementCount(sz, elemSize) <= |h.acc|
    ensures h.reportedIn < nodes ==> r.home.reportedIn < nodes
    ensures var nelem := ElementCount(sz, elemSize);
            h.reportedIn + 1 == nodes ==>
              r.home == Home(0, []) && r.sent == Broadcast(nodes, Combined(h, f, base, val, nelem))
    ensures var nelem := ElementCount(sz, elemSize);
            h.reportedIn + 1 != nodes ==>
              && r.sent == [] && r.home.reportedIn == h.reportedIn + 1
              && |r.home.acc| == (if h.reportedIn == 0 then nelem else |h.acc|)
              && r.home.acc[..nelem] == Combined(h, f, base, val, nelem)
              && (h.reportedIn != 0 ==> r.home.acc[nelem..] == h.acc[nelem..])
  {
    var nelem := ElementCount(sz, elemSize);
    var start := if h.reportedIn == 0 then seq(nelem, _ => base) else h.acc;
    var folded := FoldInto(start, val, nelem, f);
    assert folded[..nelem] == Combined(h, f, base, val, nelem);
    var count := h.reportedIn + 1;
    if count == nodes then Step(Home(0, []), Broadcast(nodes, folded[..nelem]))
    else Step(Home(count, folded), [])
  }

  /** Every node's array has at least nelem elements. */
  ghost predicate Rows<T>(vals: seq<seq<T>>, nelem: nat)
  {
    forall j :: 0 <= j < |vals| ==> nelem <= |vals[j]|
  }

  /** Element i of every node's array, in arrival order. */
  function Column<T>(vals: seq<seq<T>>, i: nat): (c: seq<T>)
    requires forall j :: 0 <= j < |vals| ==> i < |vals[j]|
    ensures |c| == |vals| && forall j :: 0 <= j < |vals| ==> c[j] == vals[j][i]
  {
    seq(|vals|, j requires 0 <= j < |vals| => vals[j][i])
  }

  /** The element-wise reduction the vector all-reduce promises:
      result[i] = BaseVal folded with every node's array[i]. */
  function ColumnFolds<T>(f: (T, T) -> T, base: T, vals: seq<seq<T>>, nelem: nat): (r: seq<T>)
    requires Rows(vals, nelem)
    ensures |r| == nelem
  {
    seq(nelem, i requires 0 <= i < nelem => FoldLeft(f, base, Column(vals, i)))
  }

  /** The handler run once per arriving array, each carrying nelem
      elements. */
  function ArrayArrivals<T>(h: Home<seq<T>>, nodes: nat, f: (T, T) -> T, base: T,
                            vals: seq<seq<T>>, nelem: nat, elemSize: nat): (r: Step<seq<T>>)
    requires elemSize >= 1 && Rows(vals, nelem)
    requires h.reportedIn != 0 ==> nelem <= |h.acc|
    ensures r.home.reportedIn != 0 ==> nelem <= |r.home.acc|
    decreases |vals|
  {
    if vals == [] then Step(h, [])
    else
      var p := ArrayArrivals(h, nodes, f, base, vals[..|vals| - 1], nelem, elemSize);
      PayloadCount(elemSize, nelem);
      var s := AmReduceArray(p.home, nodes, f, base, vals[|vals| - 1], PayloadSize(elemSize, nelem), elemSize);
      Step(s.home, p.sent + s.sent)
  }

  /** One more arriving array folds onto the column folds so far. */
  lemma ColumnFoldsSnoc<T>(f: (T, T) -> T, base: T, vals: seq<seq<T>>, nelem: nat, h: Home<seq<T>>)
    requires Rows(vals, nelem) && |vals| >= 1
    requires h.reportedIn == 0 || h.acc == ColumnFolds(f, base, vals[..|vals| - 1], nelem)
    requires h.reportedIn == 0 <==> |vals| == 1
    ensures Combined(h, f, base, vals[|vals| - 1], nelem) == ColumnFolds(f, base, vals, nelem)
  {
    var k := |vals|;
    forall i | 0 <= i < nelem
      ensures Combined(h, f, base, vals[k - 1], nelem)[i] == ColumnFolds(f, base, vals, nelem)[i]
    {
      var c := Column(vals, i);
      assert FoldLeft(f, base, c) == f(FoldLeft(f, base, c[..k - 1]), vals[k - 1][i]);
      if k == 1 {
        assert c[..0] == [];
      } else {
        assert c[..k - 1] == Column(vals[..k - 1], i);
        assert h.acc[i] == FoldLeft(f, base, Column(vals[..k - 1], i));
      }
    }
  }

  /** Part-way through an array round that started at count 0: nothing
      sent yet, and the array holds the column folds so far. */
  lemma {:induction false} ArrayRoundInProgress<T>(h: Home<seq<T>>, nodes: nat, f: (T, T) -> T, base: T,
                                                  vals: seq<seq<T>>, nelem: nat, elemSize: nat)
    requires elemSize >= 1 && Rows(vals, nelem)
    requires h.reportedIn == 0 && 1 <= |vals| < nodes
    ensures ArrayArrivals(h, nodes, f, base, vals, nelem, elemSize)
            == Step(Home(|vals|, ColumnFolds(f, base, vals, nelem)), [])
    decreases |vals|
  {
    var k := |vals|;
    PayloadCount(elemSize, nelem);
    var p := ArrayArrivals(h, nodes, f, base, vals[..k - 1], nelem, elemSize);
    if k == 1 {
      assert vals[..0] == [];
    } else {
      ArrayRoundInProgress(h, nodes, f, base, vals[..k - 1], nelem, elemSize);
    }
    var s := AmReduceArray(p.home, nodes, f, base, vals[k - 1], PayloadSize(elemSize, nelem), elemSize);
    assert ArrayArrivals(h, nodes, f, base, vals, nelem, elemSize) == Step(s.home, p.sent + s.sent);
    ColumnFoldsSnoc(f, base, vals, nelem, p.home);
    assert s.home.acc == s.home.acc[..nelem];
  }

  /** A whole array round from count 0: every node gets exactly one
      wake-up carrying, for each position, BaseVal folded with every
      node's element there; the array is freed and the count is 0. */
  lemma ArrayRoundComplete<T>(h: Home<seq<T>>, nodes: nat, f: (T, T) -> T, base: T,
                              vals: seq<seq<T>>, nelem: nat, elemSize: nat)
    requires elemSize >= 1 && Rows(vals, nelem)
    requires h.reportedIn == 0 && |vals| == nodes >= 1
    ensures ArrayArrivals(h, nodes, f, base, vals, nelem, elemSize)
            == Step(Home(0, []), Broadcast(nodes, ColumnFolds(f, base, vals, nelem)))
  {
    PayloadCount(elemSize, nelem);
    var p := ArrayArrivals(h, nodes, f, base, vals[..nodes - 1], nelem, elemSize);
    if nodes == 1 {
      assert vals[..0] == [];
    } else {
      ArrayRoundInProgress(h, nodes, f, base, vals[..nodes - 1], nelem, elemSize);
    }
    ColumnFoldsSnoc(f, base, vals, nelem, p.home);
  }

  /** Each position of the array round comes out as the scalar round
      would on that position's contributions. */
  lemma ArrayRoundIsScalarRounds<T>(f: (T, T) -> T, base: T, vals: seq<seq<T>>, nelem: nat, i: nat)
    requires Rows(vals, nelem) && i < nelem && |vals| >= 1
    ensures ColumnFolds(f, base, vals, nelem)[i]
            == Arrivals(Home(0, base), |vals|, f, FromBase(base), Column(vals, i)).home.acc
  {
    RoundComplete(Home(0, base), |vals|, f, FromBase(base), Column(vals, i));
  }
}

=== FILE: rounding.dfy ===
/** next_largest_power_of_2 as the allocator computes it: decrement,
    OR the value with itself shifted right by 1, 2, 4, 8, 16 and 32 bits,
    increment. For 1 <= v <= 2^63 every intermediate value is a
    non-negative int64_t below 2^63, so each right shift is a division by
    a power of two, and the bitwise OR is Or below. */
module Rounding {
  import opened Bits

  /** Largest value the rounding is modelled for: malloc's size_t request
      converted to int64_t. 2^63 itself becomes -2^63, the decrement
      wraps to 2^63 - 1, and the final increment wraps back to -2^63,
      which lower_bound's size_t key reads as 2^63: the value computed
      here. */
  const MaxRounded: int := 0x8000_0000_0000_0000

  /** Bitwise inclusive or of two non-negative integers. */
  function Or(a: nat, b: nat): nat
    decreases a + b
  {
    if a == 0 then b
    else if b == 0 then a
    else 2 * Or(a / 2, b / 2) + (if a % 2 == 1 || b % 2 == 1 then 1 else 0)
  }

  /** Right shift of a non-negative value by s bits, where d = 2^s. */
  function Shr(w: nat, d: int): (r: nat)
    requires d >= 1
    ensures r <= w
    ensures r * d <= w < (r + 1) * d
  {
    DivBounds(w, d);
    w / d
  }

  lemma DivBounds(w: nat, d: int)
    requires d >= 1
    ensures w / d <= w
    ensures (w / d) * d <= w < (w / d + 1) * d
  {
    var r, m := w / d, w % d;
    assert w == d * r + m;
    assert (r + 1) * d == r * d + d;
    if r >= 1 {
      MulAtLeast(r, d);
    }
  }

  /** The divisors of the six right shifts, by 1, 2, 4, 8, 16 and 32
      bits: each is the square of the one before. */
  const Shifts: seq<int> := [2, 4, 16, 256, 65536, 4294967296]

  /** `w |= w >> s` for each shift in turn. */
  function Stages(w: nat, ds: seq<int>): nat
    requires forall i :: 0 <= i < |ds| ==> ds[i] >= 1
    decreases |ds|
  {
    if ds == [] then w else Stages(Or(w, Shr(w, ds[0])), ds[1..])
  }

  /** The value of next_largest_power_of_2(v): decrement, smear, increment. */
  function Smear(v: int): int
    requires 1 <= v <= MaxRounded
  {
    Stages(v - 1, Shifts) + 1
  }

  /** OR sets bits and clears none: the result is at least either
      operand. */
  lemma {:induction false} OrAtLeast(a: nat, b: nat)
    ensures Or(a, b) >= a && Or(a, b) >= b
    decreases a + b
  {
    if a != 0 && b != 0 {
      OrAtLeast(a / 2, b / 2);
    }
  }

  /** OR of two values below a power of two stays below it. */
  lemma {:induction false} OrBelow(a: nat, b: nat, p: int)
    requires IsPow2(p) && a < p && b < p
    ensures Or(a, b) < p
    decreases p
  {
    if a != 0 && b != 0 {
      OrBelow(a / 2, b / 2, p / 2);
    }
  }

  /** When b lies below the power of two m, OR keeps a's bits from m up
      and adds at least b below them. */
  lemma {:induction false} OrAbove(a: nat, b: nat, m: int)
    requires IsPow2(m) && b < m
    ensures Or(a, b) >= (a / m) * m + b
    decreases m
  {
    if m == 1 {
      OrAtLeast(a, b);
    } else if a == 0 {
    } else if b == 0 {
      DivMul(a, m);
    } else {
      var k := m / 2;
      var t := a / m;
      OrAbove(a / 2, b / 2, k);
      DivDiv(a, k);
      assert (a / 2) / k == t;
      var low := Or(a / 2, b / 2);
      assert low >= t * k + b / 2;
      Twice(t, k);
      assert Or(a, b) >= 2 * low + b % 2;
    }
  }

  lemma Twice(t: int, k: int)
    ensures 2 * (t * k) == t * (2 * k)
  {
  }

  lemma DivMul(a: nat, m: int)
    requires m >= 1
    ensures (a / m) * m <= a
  {
  }

  lemma MulAssoc(x: int, y: int, z: int)
    ensures x * (y * z) == (x * y) * z
  {
  }

  /** A product of powers of two is a power of two. */
  lemma {:induction false} Pow2Mul(p: int, q: int)
    requires IsPow2(p) && IsPow2(q)
    ensures IsPow2(p * q)
    decreases q
  {
    if q > 1 {
      Pow2Mul(p, q / 2);
      assert p * q == 2 * (p * (q / 2));
      Pow2Double(p * (q / 2));
    }
  }

  /** A power of two divided by a smaller one is a power of two. */
  lemma {:induction false} Pow2Div(q: int, d: int)
    requires IsPow2(q) && IsPow2(d) && d <= q
    ensures IsPow2(q / d) && (q / d) * d == q
    decreases d
  {
    if d > 1 && q != d {
      Pow2Gap(d, q);
      var q2, d2 := q / 2, d / 2;
      assert d == 2 * d2 && q == 2 * q2;
      Pow2Div(q2, d2);
      DivDiv(q, d2);
      var t := q2 / d2;
      assert q / d == t;
      Twice(t, d2);
    }
  }

  /** How many of the top bits below p are set: w lies in
      [p - q, p). */
  ghost predicate TopSet(w: int, p: int, q: int)
  {
    p - q <= w < p
  }

  /** The span of top bits still to fill after a step with shift d. */
  function Remaining(q: int, d: int): int
    requires d >= 1
  {
    if d <= q then q / d else 1
  }

  /** One step `w |= w >> s` (d = 2^s) on a value whose top bits below p
      are set down to p - q, where q * d == p: the set span doubles, and
      once it reaches bit 0 every bit below p is set. */
  lemma Step(w: nat, p: int, q: int, d: int)
    requires IsPow2(p) && IsPow2(q) && IsPow2(d) && TopSet(w, p, q)
    requires q * d == p || q == 1
    ensures TopSet(Or(w, Shr(w, d)), p, Remaining(q, d))
  {
    if q == 1 {
      Filled(w, p, d);
    } else {
      Spread(w, p, q, d);
    }
  }

  /** Step once every bit below p is set: nothing changes. */
  lemma Filled(w: nat, p: int, d: int)
    requires IsPow2(p) && d >= 1 && TopSet(w, p, 1)
    ensures TopSet(Or(w, Shr(w, d)), p, 1)
  {
    var b := Shr(w, d);
    OrBelow(w, b, p);
    OrAtLeast(w, b);
  }

  /** Step while some bits below p are still clear. */
  lemma Spread(w: nat, p: int, q: int, d: int)
    requires IsPow2(p) && IsPow2(q) && IsPow2(d) && TopSet(w, p, q)
    requires q * d == p
    ensures TopSet(Or(w, Shr(w, d)), p, Remaining(q, d))
  {
    var b := Shr(w, d);
    TopBits(w, p, q, d);
    OrBelow(w, b, p);
    OrAbove(w, b, q);
    if d <= q {
      Pow2Div(q, d);
      WideLow(w, p, q, d, q / d);
    } else {
      Pow2Gap(q, d);
      NarrowLow(w, p, q, d);
    }
  }

  /** Arithmetic behind Step: the shifted value sits below the unfilled
      span, and the filled top bits are exactly p - q. */
  lemma TopBits(w: nat, p: int, q: int, d: int)
    requires q >= 1 && d >= 1 && q * d == p && p - q <= w < p
    ensures w / d < q && (w / q) * q == p - q
  {
    DivBelow(w, q, d);
    assert p - q == q * (d - 1);
    DivModUnique(w, q, d - 1, w - (p - q));
  }

  /** Arithmetic behind Step when the shift is within the unfilled span
      q = r * d: the shifted value contributes at least q - r. */
  lemma WideLow(w: nat, p: int, q: int, d: int, r: int)
    requires r >= 1 && d >= 1 && r * d == q && q * d == p && p - q <= w
    ensures w / d >= q - r
  {
    assert p - q == d * (q - r) by {
      MulAssoc(r, d, d);
    }
    DivModUnique(p - q, d, q - r, 0);
    DivMono(p - q, w, d);
  }

  /** Arithmetic behind Step when the shift is wider than the unfilled
      span: the shifted value contributes at least q - 1. */
  lemma NarrowLow(w: nat, p: int, q: int, d: int)
    requires 1 <= q < d && q * d == p && p - q <= w
    ensures w / d >= q - 1
  {
    assert p - q == d * (q - 1) + (d - q);
    DivModUnique(p - q, d, q - 1, d - q);
    DivMono(p - q, w, d);
  }

  lemma DivBelow(w: nat, q: int, d: int)
    requires q >= 1 && d >= 1 && w < q * d
    ensures w / d < q
  {
    if w / d >= q {
      MulMono(q, w / d, d);
    }
  }

  lemma MulMono(x: int, y: int, d: int)
    requires 0 <= x <= y && d >= 1
    ensures x * d <= y * d
  {
  }

  lemma DivMono(x: nat, y: nat, d: int)
    requires x <= y && d >= 1
    ensures x / d <= y / d
  {
    if x / d > y / d {
      MulMono(y / d + 1, x / d, d);
    }
  }

  /** After a step, the next shift again matches the filled span. */
  lemma NextSpan(p: int, q: int, d: int)
    requires IsPow2(p) && IsPow2(q) && IsPow2(d)
    requires q * d == p || q == 1
    ensures IsPow2(Remaining(q, d))
    ensures Remaining(q, d) * (d * d) == p || Remaining(q, d) == 1
  {
    if d <= q {
      Pow2Div(q, d);
      MulAssoc(q / d, d, d);
    }
  }

  /** One step with everything the next step needs. */
  lemma Advance(w: nat, p: int, q: int, d: int)
    requires IsPow2(p) && IsPow2(q) && IsPow2(d) && TopSet(w, p, q)
    requires q * d == p || q == 1
    ensures TopSet(Or(w, Shr(w, d)), p, Remaining(q, d))
    ensures IsPow2(Remaining(q, d))
    ensures Remaining(q, d) * (d * d) == p || Remaining(q, d) == 1
  {
    Step(w, p, q, d);
    NextSpan(p, q, d);
  }

  /** 2^63 is a power of two: 2^64, the square of the widest shift's
      divisor, halved. */
  lemma TopPower()
    ensures IsPow2(MaxRounded)
  {
    assert IsPow2(2);
    Pow2Mul(2, 2);
    Pow2Mul(4, 4);
    Pow2Mul(16, 16);
    Pow2Mul(256, 256);
    Pow2Mul(65536, 65536);
    Pow2Mul(4294967296, 4294967296);
    Pow2Div(18446744073709551616, 2);
  }

  /** Smearing a value whose top bits below p are set, with shifts that
      start at the unfilled span and square each time until the span is
      wider than p, sets every bit below p. */
  lemma {:induction false} Fills(w: nat, p: int, q: int, ds: seq<int>)
    requires IsPow2(p) && IsPow2(q) && TopSet(w, p, q)
    requires |ds| >= 1 && IsPow2(ds[0]) && (q * ds[0] == p || q == 1)
    requires forall i :: 0 <= i < |ds| ==> ds[i] >= 1
    requires forall i :: 0 <= i < |ds| - 1 ==> ds[i + 1] == ds[i] * ds[i]
    requires p < ds[|ds| - 1] * ds[|ds| - 1]
    ensures Stages(w, ds) == p - 1
    decreases |ds|
  {
    var d := ds[0];
    Advance(w, p, q, d);
    var w', q' := Or(w, Shr(w, d)), Remaining(q, d);
    if |ds| == 1 {
      LastSpan(p, q', d * d);
    } else {
      Pow2Mul(d, d);
      assert ds[1..][0] == d * d;
      Fills(w', p, q', ds[1..]);
    }
  }

  /** A span wider than p does not fit below it: every bit is set. */
  lemma LastSpan(p: int, q: int, dd: int)
    requires 1 <= p < dd && q >= 1
    requires q * dd == p || q == 1
    ensures q == 1
  {
    if q != 1 {
      MulAtLeast(dd, q);
    }
  }

  /** The decremented value of 2 <= v <= 2^63 has its top bit, the one
      below NextPow2(v), set; the six steps set every bit below it. */
  lemma Smears(v: int)
    requires 2 <= v <= MaxRounded
    ensures Smear(v) == NextPow2(v)
  {
    var p := NextPow2(v);
    assert IsPow2(2);
    assert p <= MaxRounded by {
      TopPower();
      NextPow2IsLeast(v, MaxRounded);
    }
    Pow2Div(p, 2);
    Fills(v - 1, p, p / 2, Shifts);
  }

  /** The bit trick yields the least power of two that is at least v, for
      every 1 <= v <= 2^63: it is NextPow2(v). */
  lemma SmearRounds(v: int)
    requires 1 <= v <= MaxRounded
    ensures Smear(v) == NextPow2(v)
    ensures IsPow2(Smear(v)) && v <= Smear(v)
    ensures forall q :: IsPow2(q) && v <= q ==> Smear(v) <= q
  {
    if v == 1 {
      assert Or(0, 0) == 0;
    } else {
      Smears(v);
    }
    forall q | IsPow2(q) && v <= q
      ensures Smear(v) <= q
    {
      NextPow2IsLeast(v, q);
    }
  }
}

=== FILE: wrappers.dfy ===
/** A value that may be absent: a failed check or an empty search. */
module Wrappers {
  datatype Option<T> = None | Some(value: T)
}
